=== FILE: README.md ===
# Queueing-network simulator, modelled in Dafny

A model of the discrete-event engine in `simulador_rede_filas.py`: a network of queueing
nodes, each described by a Kendall type string `X/Y/c/K`, with its own uniform arrival and
service intervals, its own linear congruential generator and a single routing target. The
engine keeps a time-sorted list of `chegada` (arrival) and `partida` (departure) events. For
each event it pops the earliest, moves the clock to it, and credits the elapsed time to every
node's time-in-state histogram at the node's occupancy level. It then runs the arrival
handler (admission check, loss counting, next own arrival, server fill) or the departure
handler (server release, routing, server fill).

Modules, in dependency order:

- `Wrappers`: `Option` and `Result`.
- `Errors`: the Python exceptions the engine can raise, as values.
- `Lcg`: the generator `GeradorAleatorio`.
- `Topology`: splitting the type string on `/`, `int()` parsing, the Kendall fields, the routing target and per-node configuration.
- `Histogram`: the `defaultdict(float)` of time per occupancy level.
- `Queue`: customers, server slots, node state, sampling and server release.
- `Events`: the event order, `append` + `sort` and `pop(0)`.
- `Network`: the simulator state and the arrival, service-start, fill-loop, departure and main-loop-step transitions.
- `Simulation`: construction, the main loop `Execute`, the invariants the loop keeps and the admission counterexample.

Some inputs are parameters:

- Time is an exact `real`.
- `float('inf')` is `None`: an unbounded capacity, or a node without its own arrivals.
- The parsed YAML descriptor is an input value (`Simulation.Descriptor`).
- The event budget `num_eventos` is the parameter `budget`.

Python exceptions become `Err` values:

- `int()` on a malformed field raises `ValueError`.
- A missing `service` entry raises `KeyError`.
- An empty first routing mapping raises `IndexError`.
- An event naming an unknown node raises `KeyError`.
- A departure without a customer raises `AttributeError`.
- `list.sort` raises `TypeError` when two events share (time, kind, node) but carry different customers. The key order is time, then `"chegada"` before `"partida"`, then the node name in lexicographic order. Such a tie is `Err(UnorderedTie)`, and every state in the model is tie-free and sorted.

Each `Sim` carries an `Admission` policy:

- `QueueOnly` is the program's check, `len(fila.fila) >= capacidade` (see Findings).
- `WholeSystem` also counts the customers in service.

## Model

| member | source | states |
|---|---|---|
| Lcg.NextAsWritten | simulador_rede_filas.py:33-38 | The draw as written raises exactly when the modulus is 0. Otherwise the new state is `(a*prev+c)` reduced modulo M under Python's floor modulus, the parameters are unchanged, and the variate lies in [0,1) with `u*M` equal to the new state. |
| Lcg.Next | simulador_rede_filas.py:26-38 | The guarded draw: the variate is always in [0,1). For M ≠ 0 the state advances by the recurrence and `u*M` is the new state. For M = 0 it returns 0 and leaves the state alone. |
| Lcg.NextAgreesWithAsWritten | simulador_rede_filas.py:33-38 | Wherever the program does not raise, the guarded draw equals the draw as written. |
| Lcg.ZeroModulusRaises | simulador_rede_filas.py:37-38 | With modulus 0 the draw as written raises, while the guarded draw returns 0. |
| Lcg.Draws | simulador_rede_filas.py:33-38 | `n` successive draws give `n` variates, each in [0,1). |
| Lcg.SkipKeepsParameters | simulador_rede_filas.py:26-38 | Any number of draws keeps a, c and M, and the state stays in [0, M). |
| Lcg.DrawsAreSkips | simulador_rede_filas.py:33-38 | The i-th variate of a run is the first variate from the state reached after i draws. |
| Lcg.DefaultDrawsAsWritten | simulador_rede_filas.py:26-38 | From the default generator, after any number of draws the guarded draw equals the program's draw. |
| Topology.Split | simulador_rede_filas.py:49 | `str.split('/')` yields at least one field and no field contains `/`. Joining the fields with `/` gives back the input. |
| Topology.SplitJoin | simulador_rede_filas.py:49 | Splitting the join of `/`-free fields gives back those fields. |
| Topology.ParseInt | simulador_rede_filas.py:50-52 | `int()` succeeds exactly on an optionally signed, non-empty run of decimal digits. |
| Topology.ParseFormat | simulador_rede_filas.py:50-52 | Every integer's decimal text parses back to that integer. |
| Topology.ParseKendall | simulador_rede_filas.py:48-52 | Parsing succeeds exactly when the third and fourth fields, where present, are integer literals. The capacity is bounded exactly when a fourth field exists. |
| Topology.KendallTwoFields | simulador_rede_filas.py:48-52 | "X/Y" gives one server and unbounded capacity. |
| Topology.KendallThreeFields | simulador_rede_filas.py:48-52 | "X/Y/c" gives c servers and unbounded capacity. |
| Topology.KendallFourFields | simulador_rede_filas.py:48-52 | "X/Y/c/K" gives c servers and capacity K. |
| Topology.NextNode | simulador_rede_filas.py:86-93 | No target exactly when the routing list is empty. The lookup raises exactly when the first entry has no keys. Otherwise the target is the first key of the first entry. |
| Topology.Derive | simulador_rede_filas.py:45-61 | A node's configuration derives exactly when its type string parses and a service interval is given. Each arrival bound is taken over when given and is 0 when missing. The service bounds, type string and routing are taken over. |
| Histogram.Credit | simulador_rede_filas.py:228 | `tempo_em_estado[level] += dt` adds dt to that level and to the total, and leaves every other level alone. |
| Histogram.CreditKeys | simulador_rede_filas.py:228 | The known levels gain exactly the credited level and stay distinct. The record grows by one bucket exactly when the level was new. |
| Queue.NewNode | simulador_rede_filas.py:63-69 | A new node has an empty waiting list, `max(c,0)` idle servers, no losses, an empty histogram, last update 0 and the generator seeded 1, so its occupancy is 0. |
| Queue.ServiceTime | simulador_rede_filas.py:71-75 | The service time takes one draw and lies in [smin, smax] when smin ≤ smax. It is non-negative when both bounds are. |
| Queue.ArrivalTime | simulador_rede_filas.py:77-84 | The next arrival is "infinite" exactly when both arrival bounds are 0, and then nothing is drawn. Otherwise it takes one draw, lies in [now+amin, now+amax] when amin ≤ amax, and is at least `now` when the bounds are non-negative. |
| Queue.FirstHolder | simulador_rede_filas.py:187-190 | Finds the lowest-index server holding the customer's identity, or reports that none does. |
| Queue.Release | simulador_rede_filas.py:187-190 | Only the first server holding the identity is reset to `(None, 0)`, which frees one busy server. Without such a server nothing changes. |
| Queue.Observe | simulador_rede_filas.py:222-229 | The elapsed time since the node's last update goes to the occupancy level at the start of the interval and to the total. Last update becomes the clock and nothing else changes. |
| Events.BeforeTransitive | simulador_rede_filas.py:126 | The tuple order on (time, kind, node) is transitive. |
| Events.BeforeTotal | simulador_rede_filas.py:126 | Two events with different keys are ordered one way or the other. |
| Events.Insert | simulador_rede_filas.py:125-126 | Appending and re-sorting a sorted list gives a sorted list with the same events plus the new one. It keeps the list tie-free when the new event ties with nobody. |
| Events.Schedule | simulador_rede_filas.py:120-126 | On a tie-free list, scheduling fails exactly when the new event ties with a different event, which is Python's `TypeError`. Otherwise it gives the sorted insertion. |
| Events.ScheduleIsTheSort | simulador_rede_filas.py:125-126 | On a tie-free list where the new event ties with no pending event, any sorted arrangement of the old events plus the new one equals the scheduled list. |
| Events.SortedArrangementUnique | simulador_rede_filas.py:126 | Two sorted, tie-free arrangements of the same events are equal. |
| Events.PopEarliest | simulador_rede_filas.py:218-219 | `pop(0)` on a non-empty list splits off the head. On a sorted list the head has minimal time and the rest stays sorted. |
| Events.OwnArrivalsInsert | simulador_rede_filas.py:125 | Scheduling changes the count of pending own arrivals at a node by one exactly when the event is such an arrival. |
| Network.StartService | simulador_rede_filas.py:167-177 | With nobody waiting nothing happens. Otherwise the head of the waiting list takes server i until a completion time that lies in [clock+smin, clock+smax] when smin <= smax and is no earlier than the clock when both bounds are non-negative, the generator draws once, and exactly one departure at that time is added. |
| Network.Fill | simulador_rede_filas.py:162-165 | The fill loop keeps configuration, histogram, losses and occupancy, and servers before i are untouched. It only removes a prefix of the waiting list, and leaves no server from i on idle while customers still wait. The event list stays sorted and keeps its own arrivals. When the node's bounds are non-negative, nothing added is earlier than the clock. |
| Network.FillIsFifo | simulador_rede_filas.py:162-165 | The loop removes as many customers as there were idle servers, or as there were waiting customers if fewer. The k-th idle server in index order takes the k-th waiting customer, and busy servers are untouched. |
| Network.FillDepartures | simulador_rede_filas.py:162-177 | The loop keeps every pending event and adds exactly one departure per server it filled, at that server's completion time and carrying the customer it took. |
| Network.FillKeepsCustomers | simulador_rede_filas.py:162-176 | Every customer waiting when the loop starts is still in the node afterwards, either waiting or in service. |
| Network.FillAt | simulador_rede_filas.py:205-208 | After the fill, no server of the node is idle while a customer waits, occupancy and losses are unchanged, and other nodes are unchanged. The pending events stay, plus exactly one departure per filled server, and every event added lies at this node. Every customer that was in the node, waiting or in service, is still in it. |
| Network.Rejected | simulador_rede_filas.py:136-153 | A lost arrival changes the node only by one more loss, and adds one to the counter for a new customer. It changes no event, no other node and no occupancy, so occupancy plus losses grows by one. |
| Network.Reschedule | simulador_rede_filas.py:158-160 | A node with its own arrivals gets exactly one more pending own arrival, drawn once, and no earlier than the clock when the node's bounds are non-negative. A node without them is unchanged. Every pending event stays, and the list grows by one exactly when the node has an arrival stream. |
| Network.Stamp | simulador_rede_filas.py:136-148 | A new customer gets the counter plus one as identity and the clock as arrival time. A routed customer keeps its identity and arrival time. Either way the customer is placed at the node, with the given routing target as next node. |
| Network.Arrive | simulador_rede_filas.py:128-165 | Raises for an unknown node. A new customer bumps the counter whether admitted or not. Occupancy plus losses grows by one. The loss count grows exactly when the admission check fails, and a rejected arrival changes nothing else. An admitted customer, stamped with its identity, arrival time, this node and the node's routing target, is in the node afterwards. An admitted arrival schedules the node's next own arrival even for a routed customer and leaves no server idle while customers wait. Every customer already in the node stays in it, waiting or in service. Other nodes are unchanged, and every event added lies at this node. |
| Network.Admit | simulador_rede_filas.py:155-165 | An admitted customer adds one to the node's occupancy and none to its losses, and is in the node afterwards, waiting or in service, as is every customer already there. No server is idle while a customer waits, the node has one more pending own arrival exactly when it has an arrival stream, other nodes are unchanged, and every event added lies at this node. |
| Network.Enqueue | simulador_rede_filas.py:155-160 | The customer is appended at the end of the waiting list, the servers and losses are unchanged and occupancy grows by one. The node's own arrivals, and the whole event list, grow by one exactly when it has an arrival stream, and every event added lies at this node. Other nodes are unchanged. |
| Network.Route | simulador_rede_filas.py:192-203 | A customer with no next node, or an empty one, leaves with nothing changed. Otherwise its arrival adds one to occupancy plus losses at the target node only. Every node keeps every customer it held, and every event added lies at the target. |
| Network.Depart | simulador_rede_filas.py:179-208 | Raises for an unknown node or a missing customer. Keeps the customer counter. Leaves no server of the node idle while customers wait. Every customer at the node with another identity stays there. Nodes other than this one and the target are unchanged, every other node keeps every customer it held, and every event added lies at this node or at the target. |
| Network.Free | simulador_rede_filas.py:186-190 | Releasing the customer's server removes one customer from occupancy plus losses exactly when some server held it. The waiting list, the losses, the events and every other node are unchanged, and every customer at the node with another identity is still there. |
| Network.DepartConserves | simulador_rede_filas.py:184-208 | Occupancy plus losses drops by one at the departing node if a server held the customer, and grows by one at the target. No other node's count moves. |
| Network.ObserveAll | simulador_rede_filas.py:222-229 | Every node, not only the event's node, is credited for the elapsed interval. |
| Network.Step | simulador_rede_filas.py:217-234 | The clock moves to the earliest event's time. Every node's bucket for its occupancy before the event, and its total, grow by `clock - last`, every other bucket is unchanged, and last becomes the clock. Every event still pending after the pop stays pending. The event list stays sorted, and stays tie-free when it was tie-free. When every node's bounds are non-negative, new events are never earlier than the clock. |
| Network.Dispatch | simulador_rede_filas.py:231-234 | An event naming an unknown node raises, and a departure without a customer raises. A handled event keeps the frame: clock, node names, configurations, a sorted event list. |
| Network.DispatchAccounts | simulador_rede_filas.py:231-234 | The event reaches its handler: an arrival adds one to occupancy plus losses at its node, and a departure takes one from its node when a server held the customer and adds one at the customer's next node. No other node's count moves. |
| Network.ArriveAccounts | simulador_rede_filas.py:128-165 | An arrival adds one to occupancy plus losses at its own node and moves no other node's count. |
| Network.DepartAccounts | simulador_rede_filas.py:179-208 | A departure moves one customer from its node, if a server held it, to its next node, and moves no other node's count. |
| Network.StepAccounts | simulador_rede_filas.py:217-234 | An iteration of the main loop moves every node's occupancy plus losses exactly as its popped event says. Crediting time moves no count. |
| Network.DispatchRetains | simulador_rede_filas.py:231-234 | The handler an event reaches keeps every customer of every node, waiting or in service, except the one a departure releases from its own node, and adds events only at the event's node or, for a departure, at the customer's next node. |
| Network.ArriveRetains | simulador_rede_filas.py:128-165 | An arrival keeps every customer of every node and adds events only at its own node. |
| Network.DepartRetains | simulador_rede_filas.py:179-208 | A departure keeps every customer of every node except the one it releases, and adds events only at its node or at the customer's next node. |
| Network.StepRetains | simulador_rede_filas.py:217-234 | An iteration of the main loop keeps every customer of every node except the one its popped departure releases, and adds events only where the popped event's handler acts. |
| Network.FillRetains | simulador_rede_filas.py:162-165 | Moving waiting customers onto servers in FIFO order loses nobody: every customer waiting or in service before is waiting or in service after. |
| Network.EnqueueRetains | simulador_rede_filas.py:155-165 | Appending a customer and then filling servers keeps every customer the node already held. |
| Network.DeparturesAt | simulador_rede_filas.py:173-177 | Every departure the fill loop schedules is at the node being filled. |
| Queue.ReleaseKeeps | simulador_rede_filas.py:187-190 | Releasing the server of one identity keeps every other customer in service on the same server. |
| Simulation.StepCoversClock | simulador_rede_filas.py:221-229 | If every node's histogram total equals the clock and its last update is the clock, this still holds after a step. |
| Simulation.StepCausal | simulador_rede_filas.py:217-219 | From a causal state (non-negative bounds, no pending event before the clock), a step keeps the state causal and the clock never decreases. |
| Simulation.StepBounded | simulador_rede_filas.py:150-153 | When capacity counts the customers in service, a step from a state where every node is within capacity never overfills a node. |
| Simulation.Run | simulador_rede_filas.py:217-236 | `n` iterations of the main loop: zero iterations change nothing, a run stops at an empty event list, and every state reached has the same nodes and a sorted event list. |
| Simulation.RunIdle | simulador_rede_filas.py:218 | With no pending events, any number of iterations leaves the state as it is. |
| Simulation.StepKeeps | simulador_rede_filas.py:217-234 | One step keeps sortedness and node names, and keeps tie-freedom, histogram totals equal to the clock, causality and, under the whole-system check, the capacity bound, each when the start state had it. |
| Simulation.RunKeeps | simulador_rede_filas.py:217-236 | Every state a run reaches keeps those invariants of its start state. |
| Simulation.RunNext | simulador_rede_filas.py:218-234 | A run that has reached a state with pending events takes its next iteration from that state. |
| Simulation.QueueOnlyOverfills | simulador_rede_filas.py:151 | As written, a busy single-server node of capacity 1 admits a second customer. |
| Simulation.WholeSystemRejects | simulador_rede_filas.py:151 | Counting customers in service, the same arrival is lost and the node stays within capacity. |
| Simulation.Execute | simulador_rede_filas.py:217-236 | At most `budget` events are processed, and a budget of zero or less changes nothing. Stopping before the budget means no events are left. On success the result equals `Run` over the processed events. On an error it equals `Run` one iteration further, whose last step raised. A final state keeps sortedness and node names. It keeps tie-freedom, histogram totals equal to the clock, causality with a clock no earlier than the start, and, under the whole-system check, the capacity bound, each when the start state had it. |
| Simulation.BuildNodes | simulador_rede_filas.py:111-113 | Building succeeds exactly when every entry derives, with one fresh node per descriptor name. |
| Simulation.Seed | simulador_rede_filas.py:115-118 | Seeding never fails, because no new arrival can tie. Every named node with its own arrivals draws once from its generator, nodes without arrivals are untouched, and with non-negative bounds every new event is no earlier than 2.0. Every event added lies at a named node. |
| Simulation.SeedArrivals | simulador_rede_filas.py:115-118 | Each named node with its own arrivals gains exactly one pending own arrival. No other node gains any. |
| Simulation.Init | simulador_rede_filas.py:100-118 | Construction succeeds exactly when every entry derives. Clock and counter start at 0 with one node per name. |
| Simulation.InitNode | simulador_rede_filas.py:111-118 | Every node after construction is the fresh node of its own descriptor entry, seeded when it has arrivals. |
| Simulation.InitEstablishes | simulador_rede_filas.py:106-118 | The initial state is sorted, tie-free, within capacity and has histograms that cover the clock. With non-negative bounds it is causal. |
| Simulation.InitNodes | simulador_rede_filas.py:63-69 | Every node starts empty with no losses and its own generator seeded 1. Each node with its own arrivals has exactly one pending arrival and one draw taken. |

## Left out

- YAML loading (`open`, `yaml.safe_load`) is input. The parsed descriptor is a parameter, and duplicate YAML keys cannot arise in it, since node names are required to be distinct.
- All printing, the progress line every 10000 events and the percentage report are output only.
- The `__main__` entry point and the unused `import random` are not modelled.
- IEEE floating point is not modelled: time and bounds are exact reals, and `float('inf')` is `None`. An infinite arrival time is never scheduled: the guard `min > 0 or max > 0` before each scheduling call excludes the only case, both bounds 0, in which the arrival time is infinite.
- `int()` leniency (surrounding whitespace, `_` digit separators, non-ASCII digits) is not modelled. Only ASCII digits with an optional sign parse.
- Routing weights are carried in the configuration but never read, exactly as in the program.
- Network.Route: the contract states where the routed customer is counted, not the stamped copy's fields. Those fields, the identity and an arrival stamp equal to the clock, are fixed by the definition only.
- Network.Dispatch: which handler runs is fixed by the definition; what the handler does to the per-node counts is stated in the separate lemma `Network.DispatchAccounts`, not in this member's contract.
- Network.Step: the per-node accounting of the popped event is stated in the separate lemma `Network.StepAccounts`, not in this member's contract.
- Events.Schedule: on a list that already holds a tie, Python's sort raises `TypeError` while the model returns the insertion. The engine never holds such a list: the initial list is tie-free (`Simulation.InitEstablishes`) and every step keeps it so (`Simulation.StepKeeps`).
- Network.Depart: the per-node accounting is stated in the separate lemma `Network.DepartConserves`, not in this member's contract. Customer retention at the departing node is stated by identity: every customer with another identity than the departing one stays. Two customers at one node sharing an identity would not be covered. Each new customer takes the incremented counter as its identity (`simulador_rede_filas.py:136-139`), but that identities at a node stay distinct over a run is not proved.
- Network.Free: retention is stated by identity, as for `Network.Depart`.
- Simulation.Seed: the count of pending own arrivals is stated in the separate lemma `Simulation.SeedArrivals`, not in this member's contract.
- Simulation.Execute: conservation over a whole run (admitted = served + present) is not stated. The per-event accounting is stated for each iteration by `Network.StepAccounts`.

## Findings

| source | as written | input that shows it | evidently intended | confidence | as-written member | corrected member |
|---|---|---|---|---|---|---|
| simulador_rede_filas.py:37-38 | `(a*anterior + c) % M` is evaluated before the `M != 0` guard, so the guard never applies | a generator built with `M=0`: the first draw raises `ZeroDivisionError` | with M = 0 the draw returns 0, as the guard says | high; not executed | Lcg.NextAsWritten (Lcg.ZeroModulusRaises) | Lcg.Next |
| simulador_rede_filas.py:151 | admission compares only the waiting-list length with the capacity K | type "G/G/1/1", one server busy, nobody waiting: a new arrival is admitted and the node holds 2 customers | K bounds the customers in the node, both waiting and in service | medium; not executed | Simulation.QueueOnlyOverfills (admission `QueueOnly`) | Simulation.StepBounded (admission `WholeSystem`) |

The engine draws with the guarded `Lcg.Next`. This does not change its behaviour: every generator it builds is `Lcg.Default`, whose modulus is 2^32 and stays so, and from it the guarded draw equals the program's draw (`Lcg.DefaultDrawsAsWritten`).

The engine runs unchanged under either admission policy.

- The program's behaviour is `QueueOnly`, and every per-step property other than the capacity bound holds under both policies.
- The capacity bound is proved for `WholeSystem` (`Simulation.StepBounded`, `Simulation.Execute`).

=== FILE: errors.dfy ===
/** The ways a simulation stops early; each stands for the exception the program raises there. */
module Errors {

  datatype Error =
    /** `int()` rejected a field of the Kendall type string (ValueError). */
    | MalformedInteger(text: string)
    /** The node configuration has no service bounds (KeyError). */
    | MissingService
    /** The first routing entry names no target (IndexError). */
    | EmptyRoutingEntry
    /** An event or a routing target names a node that is not configured (KeyError). */
    | UnknownNode(name: string)
    /** Two pending events agree on time, kind and node but carry different customers,
        so sorting the event list has to compare customers (TypeError). */
    | UnorderedTie
    /** A departure event carries no customer (AttributeError). */
    | MissingCustomer
}

=== FILE: events.dfy ===
/** The pending-event list: kept sorted by (time, kind, node), as the program keeps it by
    re-sorting after every append (simulador_rede_filas.py, agendar_evento and the pop in executar). */
module Events {
  import opened Wrappers
  import opened Errors
  import opened Queue

  /** Event kinds; the program's strings "chegada" < "partida", so arrivals sort first on ties. */
  datatype Kind = Arrival | Departure

  /** A pending event; exogenous arrivals carry no customer. */
  datatype Event = Event(time: real, kind: Kind, node: string, who: Option<Customer>)

  predicate KindBefore(a: Kind, b: Kind) {
    a.Arrival? && b.Departure?
  }

  /** Python's `<` on strings: lexicographic by code point, a proper prefix first. */
  predicate NameBefore(a: string, b: string)
    decreases |a|
  {
    if a == [] then b != []
    else if b == [] then false
    else if a[0] != b[0] then a[0] < b[0]
    else NameBefore(a[1..], b[1..])
  }

  lemma {:induction false} NameBeforeIrreflexive(a: string)
    ensures !NameBefore(a, a)
    decreases |a|
  {
    if a != [] {
      NameBeforeIrreflexive(a[1..]);
    }
  }

  lemma {:induction false} NameBeforeTransitive(a: string, b: string, c: string)
    requires NameBefore(a, b) && NameBefore(b, c)
    ensures NameBefore(a, c)
    decreases |a|
  {
    if a != [] && a[0] == b[0] && b[0] == c[0] {
      NameBeforeTransitive(a[1..], b[1..], c[1..]);
    }
  }

  lemma {:induction false} NameBeforeTotal(a: string, b: string)
    requires a != b
    ensures NameBefore(a, b) || NameBefore(b, a)
    decreases |a|
  {
    if a != [] && b != [] && a[0] == b[0] {
      assert a == [a[0]] + a[1..] && b == [b[0]] + b[1..];
      NameBeforeTotal(a[1..], b[1..]);
    }
  }

  lemma {:induction false} NameBeforeAsymmetric(a: string, b: string)
    requires NameBefore(a, b)
    ensures !NameBefore(b, a)
  {
    if NameBefore(b, a) {
      NameBeforeTransitive(a, b, a);
      NameBeforeIrreflexive(a);
    }
  }

  /** Two events the sort cannot tell apart without looking at the customer. */
  predicate SameKey(x: Event, y: Event) {
    x.time == y.time && x.kind == y.kind && x.node == y.node
  }

  /** Strictly earlier in the order of (time, kind, node). */
  predicate Before(x: Event, y: Event) {
    || x.time < y.time
    || (x.time == y.time && KindBefore(x.kind, y.kind))
    || (x.time == y.time && x.kind == y.kind && NameBefore(x.node, y.node))
  }

  predicate NotAfter(x: Event, y: Event) {
    Before(x, y) || SameKey(x, y)
  }

  lemma BeforeIrreflexive(x: Event)
    ensures !Before(x, x)
  {
    NameBeforeIrreflexive(x.node);
  }

  lemma BeforeTransitive(x: Event, y: Event, z: Event)
    requires NotAfter(x, y) && NotAfter(y, z)
    ensures NotAfter(x, z)
    ensures Before(x, y) || Before(y, z) ==> Before(x, z)
  {
    if x.time == y.time == z.time && x.kind == y.kind == z.kind
       && NameBefore(x.node, y.node) && NameBefore(y.node, z.node) {
      NameBeforeTransitive(x.node, y.node, z.node);
    }
  }

  lemma BeforeTotal(x: Event, y: Event)
    ensures NotAfter(x, y) || Before(y, x)
  {
    if x.time == y.time && x.kind == y.kind && x.node != y.node {
      NameBeforeTotal(x.node, y.node);
    }
  }

  lemma BeforeAsymmetric(x: Event, y: Event)
    requires Before(x, y)
    ensures !NotAfter(y, x)
  {
    if x.time == y.time && x.kind == y.kind && NameBefore(x.node, y.node) {
      NameBeforeAsymmetric(x.node, y.node);
      NameBeforeIrreflexive(x.node);
    }
  }

  /** Non-decreasing in (time, kind, node). */
  predicate Sorted(q: seq<Event>) {
    forall i, j :: 0 <= i < j < |q| ==> NotAfter(q[i], q[j])
  }

  /** Python can order the two tuples: equal keys only for equal events, since comparing
      two different customers (or a customer with None) raises. */
  predicate Comparable(x: Event, y: Event) {
    SameKey(x, y) ==> x == y
  }

  predicate TieFree(q: seq<Event>) {
    forall i, j :: 0 <= i < |q| && 0 <= j < |q| ==> Comparable(q[i], q[j])
  }

  /** `e` can be sorted together with every event of `q`. */
  predicate Fits(q: seq<Event>, e: Event) {
    forall i :: 0 <= i < |q| ==> Comparable(q[i], e)
  }

  /** Where the stable re-sort of `q + [e]` places `e`: after every event not later than it. */
  function InsertAt(q: seq<Event>, e: Event): (p: nat)
    ensures p <= |q|
    ensures forall i :: 0 <= i < p ==> !Before(e, q[i])
    ensures p < |q| ==> Before(e, q[p])
  {
    if q == [] then 0
    else if Before(e, q[0]) then 0
    else 1 + InsertAt(q[1..], e)
  }

  /** `eventos.append(e); eventos.sort()` on an already sorted list. */
  function Insert(q: seq<Event>, e: Event): (r: seq<Event>)
    requires Sorted(q)
    ensures Sorted(r)
    ensures multiset(r) == multiset(q) + multiset{e}
    ensures |r| == |q| + 1
    ensures r == q[..InsertAt(q, e)] + [e] + q[InsertAt(q, e)..]
    ensures TieFree(q) && Fits(q, e) ==> TieFree(r)
  {
    var p := InsertAt(q, e);
    var r := q[..p] + [e] + q[p..];
    assert q == q[..p] + q[p..];
    InsertKeepsSorted(q, e, p, r);
    InsertKeepsTieFree(q, e, p, r);
    r
  }

  lemma InsertKeepsTieFree(q: seq<Event>, e: Event, p: nat, r: seq<Event>)
    requires p <= |q| && r == q[..p] + [e] + q[p..]
    ensures TieFree(q) && Fits(q, e) ==> TieFree(r)
  {
    if TieFree(q) && Fits(q, e) {
      forall i, j | 0 <= i < |r| && 0 <= j < |r| ensures Comparable(r[i], r[j]) {
        var a := if i < p then i else i - 1;
        var b := if j < p then j else j - 1;
        if i != p && j != p {
          assert r[i] == q[a] && r[j] == q[b];
        } else if i != p {
          assert r[i] == q[a] && r[j] == e;
        } else if j != p {
          assert r[i] == e && r[j] == q[b];
          assert Comparable(q[b], e);
        }
      }
    }
  }

  lemma InsertKeepsSorted(q: seq<Event>, e: Event, p: nat, r: seq<Event>)
    requires Sorted(q) && p <= |q| && r == q[..p] + [e] + q[p..]
    requires forall i :: 0 <= i < p ==> !Before(e, q[i])
    requires p < |q| ==> Before(e, q[p])
    ensures Sorted(r)
  {
    forall i, j | 0 <= i < j < |r| ensures NotAfter(r[i], r[j]) {
      if j < p || i > p {
        var a := if i < p then i else i - 1;
        var b := if j < p then j else j - 1;
        assert r[i] == q[a] && r[j] == q[b];
      } else if i < p && j == p {
        BeforeTotal(q[i], e);
      } else if i < p {
        BeforeTotal(q[i], e);
        assert NotAfter(e, q[p]);
        if j - 1 > p { BeforeTransitive(e, q[p], q[j - 1]); }
        BeforeTransitive(q[i], e, q[j - 1]);
      } else {
        assert i == p && r[i] == e && r[j] == q[j - 1];
        if j - 1 > p { BeforeTransitive(e, q[p], q[j - 1]); }
      }
    }
  }

  /** Stage of `Schedule`: the program raises when the new event ties with a different one. */
  function Schedule(q: seq<Event>, e: Event): (r: Result<seq<Event>, Error>)
    requires Sorted(q)
    ensures r.Ok? <==> Fits(q, e)
    ensures r.Err? ==> r.error == UnorderedTie
    ensures r.Ok? ==> r.value == Insert(q, e)
  {
    if Fits(q, e) then Ok(Insert(q, e)) else Err(UnorderedTie)
  }

  /** `eventos.pop(0)`: the first event and the rest, or None when nothing is pending. */
  function PopEarliest(q: seq<Event>): (r: Option<(Event, seq<Event>)>)
    ensures r.None? <==> q == []
    ensures r.Some? ==> q == [r.value.0] + r.value.1
    ensures r.Some? && Sorted(q) ==> Sorted(r.value.1)
    ensures r.Some? && Sorted(q) ==> forall i :: 0 <= i < |r.value.1| ==> NotAfter(r.value.0, r.value.1[i])
    ensures r.Some? && Sorted(q) ==> forall i :: 0 <= i < |q| ==> r.value.0.time <= q[i].time
  {
    if q == [] then None
    else
      assert Sorted(q) ==> forall i :: 0 < i < |q| ==> NotAfter(q[0], q[i]);
      Some((q[0], q[1..]))
  }

  lemma SortedTail(q: seq<Event>)
    requires q != [] && Sorted(q)
    ensures Sorted(q[1..])
  {
    forall x, y | 0 <= x < y < |q[1..]| ensures NotAfter(q[1..][x], q[1..][y]) {
      assert NotAfter(q[x + 1], q[y + 1]);
    }
  }

  lemma TieFreeTail(q: seq<Event>)
    requires q != [] && TieFree(q)
    ensures TieFree(q[1..])
  {
    forall x, y | 0 <= x < |q[1..]| && 0 <= y < |q[1..]| ensures Comparable(q[1..][x], q[1..][y]) {
      assert Comparable(q[x + 1], q[y + 1]);
    }
  }

  /** Two sorted arrangements of the same events start with the same event. */
  lemma SameFirst(a: seq<Event>, b: seq<Event>)
    requires a != [] && Sorted(a) && Sorted(b) && TieFree(a)
    requires multiset(a) == multiset(b)
    ensures b != [] && a[0] == b[0]
  {
    assert a[0] in multiset(b);
    assert b[0] in multiset(a);
    var i :| 0 <= i < |b| && b[i] == a[0];
    var j :| 0 <= j < |a| && a[j] == b[0];
    assert NotAfter(b[0], a[0]) by { if i > 0 { assert NotAfter(b[0], b[i]); } }
    assert NotAfter(a[0], b[0]) by { if j > 0 { assert NotAfter(a[0], a[j]); } }
    if Before(a[0], b[0]) { BeforeAsymmetric(a[0], b[0]); }
    assert Comparable(a[0], a[j]);
  }

  /** A sorted, tie-free arrangement of a collection of events is unique. */
  lemma {:induction false} SortedArrangementUnique(a: seq<Event>, b: seq<Event>)
    requires Sorted(a) && Sorted(b) && TieFree(a)
    requires multiset(a) == multiset(b)
    ensures a == b
    decreases |a|
  {
    assert |a| == |multiset(a)| == |b|;
    if a != [] {
      SameFirst(a, b);
      assert a == [a[0]] + a[1..] && b == [b[0]] + b[1..];
      assert multiset(a[1..]) == multiset(a) - multiset{a[0]};
      assert multiset(b[1..]) == multiset(b) - multiset{b[0]};
      SortedTail(a);
      SortedTail(b);
      TieFreeTail(a);
      SortedArrangementUnique(a[1..], b[1..]);
    }
  }

  /** What `agendar_evento` leaves behind is THE sorted list of the old events plus the new one:
      any sorted arrangement of those events equals it. */
  lemma ScheduleIsTheSort(q: seq<Event>, e: Event, r: seq<Event>)
    requires Sorted(q) && TieFree(q) && Fits(q, e)
    requires Sorted(r) && multiset(r) == multiset(q) + multiset{e}
    ensures Schedule(q, e) == Ok(r)
  {
    SortedArrangementUnique(Insert(q, e), r);
  }

  /** Number of pending exogenous arrivals (no customer) at `node`. */
  function OwnArrivals(q: seq<Event>, node: string): nat {
    if q == [] then 0
    else (if q[0].kind == Arrival && q[0].node == node && q[0].who.None? then 1 else 0) + OwnArrivals(q[1..], node)
  }

  lemma {:induction false} OwnArrivalsConcat(a: seq<Event>, b: seq<Event>, node: string)
    ensures OwnArrivals(a + b, node) == OwnArrivals(a, node) + OwnArrivals(b, node)
  {
    if a == [] {
      assert a + b == b;
    } else {
      assert (a + b)[1..] == a[1..] + b;
      OwnArrivalsConcat(a[1..], b, node);
    }
  }

  /** Inserting an event adds one to the count exactly when it is an exogenous arrival there. */
  lemma OwnArrivalsInsert(q: seq<Event>, e: Event, node: string)
    requires Sorted(q)
    ensures OwnArrivals(Insert(q, e), node)
         == OwnArrivals(q, node) + (if e.kind == Arrival && e.node == node && e.who.None? then 1 else 0)
  {
    OwnArrivalsSplice(q, e, InsertAt(q, e), node);
  }

  lemma OwnArrivalsSplice(q: seq<Event>, e: Event, p: nat, node: string)
    requires p <= |q|
    ensures OwnArrivals(q[..p] + [e] + q[p..], node)
         == OwnArrivals(q, node) + (if e.kind == Arrival && e.node == node && e.who.None? then 1 else 0)
  {
    OwnArrivalsConcat(q[..p] + [e], q[p..], node);
    OwnArrivalsConcat(q[..p], [e], node);
    OwnArrivalsConcat(q[..p], q[p..], node);
    assert q[..p] + q[p..] == q;
  }

  /** What scheduling adds: the new event and nothing else, and one own arrival exactly when
      the new event is one. */
  lemma ScheduleAdds(q: seq<Event>, e: Event)
    requires Sorted(q) && Schedule(q, e).Ok?
    ensures forall x :: x in Schedule(q, e).value ==> x in q || x == e
    ensures forall m ::
      OwnArrivals(Schedule(q, e).value, m) == OwnArrivals(q, m) + (if e.kind == Arrival && e.node == m && e.who.None? then 1 else 0)
  {
    var r := Schedule(q, e).value;
    forall x | x in r ensures x in q || x == e {
      assert x in multiset(r);
    }
    forall m ensures OwnArrivals(r, m) == OwnArrivals(q, m) + (if e.kind == Arrival && e.node == m && e.who.None? then 1 else 0) {
      OwnArrivalsInsert(q, e, m);
    }
  }
}

=== FILE: histogram.dfy ===
/** Time-in-state accounting of one node: the program's `defaultdict(float)` from occupancy
    level to accumulated time, kept as an association list in key-insertion order. */
module Histogram {

  datatype Bucket = Bucket(level: nat, time: real)

  type Hist = seq<Bucket>

  /** Sum of the accumulated times over all levels. */
  function Total(h: Hist): real {
    if h == [] then 0.0 else h[0].time + Total(h[1..])
  }

  /** Time recorded at `level`; a level never seen reads as 0, as in a defaultdict. */
  function TimeAt(h: Hist, level: nat): real {
    if h == [] then 0.0
    else if h[0].level == level then h[0].time
    else TimeAt(h[1..], level)
  }

  /** The levels that have a bucket. */
  function Levels(h: Hist): set<nat> {
    set i | 0 <= i < |h| :: h[i].level
  }

  /** No level appears twice, as for the keys of a dict. */
  predicate DistinctLevels(h: Hist) {
    forall i, j :: 0 <= i < j < |h| ==> h[i].level != h[j].level
  }

  lemma LevelsCons(x: Bucket, t: Hist)
    ensures Levels([x] + t) == {x.level} + Levels(t)
  {
    var h := [x] + t;
    forall l | l in Levels(h) ensures l in {x.level} + Levels(t) {
      var i :| 0 <= i < |h| && h[i].level == l;
      if i > 0 { assert t[i - 1].level == l; }
    }
    forall l | l in Levels(t) ensures l in Levels(h) {
      var i :| 0 <= i < |t| && t[i].level == l;
      assert h[i + 1].level == l;
    }
    assert h[0].level == x.level;
  }

  lemma DistinctCons(x: Bucket, t: Hist)
    ensures DistinctLevels([x] + t) <==> x.level !in Levels(t) && DistinctLevels(t)
  {
    var h := [x] + t;
    if DistinctLevels(h) {
      forall i, j | 0 <= i < j < |t| ensures t[i].level != t[j].level {
        assert h[i + 1] == t[i] && h[j + 1] == t[j];
      }
      forall i | 0 <= i < |t| ensures t[i].level != x.level {
        assert h[i + 1] == t[i] && h[0] == x;
      }
    }
    if x.level !in Levels(t) && DistinctLevels(t) {
      forall i, j | 0 <= i < j < |h| ensures h[i].level != h[j].level {
        if i == 0 {
          assert h[j].level == t[j - 1].level;
        } else {
          assert h[i] == t[i - 1] && h[j] == t[j - 1];
        }
      }
    }
  }

  /** `hist[level] += dt`: adds `dt` to the bucket of `level`, creating it at the end
      when the level has not been seen before. */
  function Credit(h: Hist, level: nat, dt: real): (r: Hist)
    ensures Total(r) == Total(h) + dt
    ensures TimeAt(r, level) == TimeAt(h, level) + dt
    ensures forall l :: l != level ==> TimeAt(r, l) == TimeAt(h, l)
  {
    if h == [] then [Bucket(level, dt)]
    else if h[0].level == level then
      var r := [h[0].(time := h[0].time + dt)] + h[1..];
      assert r[1..] == h[1..];
      r
    else
      var r := [h[0]] + Credit(h[1..], level, dt);
      assert r[1..] == Credit(h[1..], level, dt);
      r
  }

  /** Crediting keeps the dict's keys distinct: the level's bucket is updated in place when
      it exists and appended otherwise. */
  lemma {:induction false} CreditKeys(h: Hist, level: nat, dt: real)
    ensures Levels(Credit(h, level, dt)) == Levels(h) + {level}
    ensures DistinctLevels(h) ==> DistinctLevels(Credit(h, level, dt))
    ensures |Credit(h, level, dt)| == |h| + (if level in Levels(h) then 0 else 1)
  {
    if h != [] {
      var x := h[0];
      var t := h[1..];
      assert h == [x] + t;
      LevelsCons(x, t);
      DistinctCons(x, t);
      if x.level == level {
        assert Credit(h, level, dt) == [x.(time := x.time + dt)] + t;
        LevelsCons(x.(time := x.time + dt), t);
        DistinctCons(x.(time := x.time + dt), t);
      } else {
        assert Credit(h, level, dt) == [x] + Credit(t, level, dt);
        CreditKeys(t, level, dt);
        LevelsCons(x, Credit(t, level, dt));
        DistinctCons(x, Credit(t, level, dt));
      }
    }
  }
}

=== FILE: lcg.dfy ===
/** The linear congruential generator each queue draws its variates from
    (simulador_rede_filas.py, class GeradorAleatorio). */
module Lcg {
  import opened Wrappers

  const Multiplier: int := 1664525
  const Increment: int := 1013904223
  const Modulus: int := 0x1_0000_0000
  const Seed: int := 1

  /** Generator state: the previous value and the recurrence parameters. */
  datatype Gen = Gen(prev: int, a: int, c: int, m: int)

  /** The generator every queue is built with: seed 1 and the default parameters. */
  const Default: Gen := Gen(Seed, Multiplier, Increment, Modulus)

  /** Python's `divmod` on integers: quotient and remainder with `x == q*m + r`, the
      remainder taking the sign of the divisor. */
  function FloorDivMod(x: int, m: int): (r: (int, int))
    requires m != 0
    ensures x == r.0 * m + r.1
    ensures m > 0 ==> 0 <= r.1 < m
    ensures m < 0 ==> m < r.1 <= 0
  {
    var q, e := x / m, x % m;
    assert x == q * m + e;
    if m > 0 || e == 0 then (q, e)
    else
      assert (q - 1) * m == q * m - m;
      (q - 1, e + m)
  }

  /** Python's `%` on integers. */
  function FloorMod(x: int, m: int): int
    requires m != 0
  {
    FloorDivMod(x, m).1
  }

  /** A variate in the half-open unit interval. */
  predicate Unit(u: real) {
    0.0 <= u < 1.0
  }

  /** `g'` is one step of the recurrence from `g`: same parameters, and the new state is the
      representative of `a*prev + c` modulo `m` in Python's range for that modulus. */
  predicate Advances(g: Gen, g': Gen)
    requires g.m != 0
  {
    && g'.a == g.a && g'.c == g.c && g'.m == g.m
    && g'.prev == FloorMod(g.a * g.prev + g.c, g.m)
    && (g.m > 0 ==> 0 <= g'.prev < g.m)
    && (g.m < 0 ==> g.m < g'.prev <= 0)
  }

  lemma ProductNonNegative(a: real, b: real)
    requires a >= 0.0 && b >= 0.0
    ensures a * b >= 0.0
  {
  }

  lemma QuotientInUnit(s: real, m: real)
    requires (0.0 <= s < m) || (m < s <= 0.0)
    ensures Unit(s / m)
  {
    var u := s / m;
    assert u * m == s;
    if m > 0.0 {
      assert u < 1.0 by {
        if u >= 1.0 { ProductNonNegative(u - 1.0, m); }
      }
    } else {
      assert u < 1.0 by {
        if u >= 1.0 { ProductNonNegative(u - 1.0, -m); }
      }
    }
  }

  /** The draw as the program writes it: the modulus is taken before the `M != 0` test,
      so a zero modulus raises (None) instead of reaching the fallback. */
  function NextAsWritten(g: Gen): (r: Option<(Gen, real)>)
    ensures r.None? <==> g.m == 0
    ensures r.Some? ==> Advances(g, r.value.0) && Unit(r.value.1)
    ensures r.Some? ==> r.value.1 * (g.m as real) == r.value.0.prev as real
  {
    if g.m == 0 then None
    else
      var s := FloorMod(g.a * g.prev + g.c, g.m);
      QuotientInUnit(s as real, g.m as real);
      Some((g.(prev := s), s as real / g.m as real))
  }

  /** The draw with the zero-modulus guard applied first, as the program evidently intends:
      a zero modulus yields 0 and leaves the state alone. */
  function Next(g: Gen): (r: (Gen, real))
    ensures Unit(r.1)
    ensures g.m != 0 ==> Advances(g, r.0) && r.1 * (g.m as real) == r.0.prev as real
    ensures g.m == 0 ==> r.1 == 0.0 && r.0 == g
  {
    if g.m == 0 then (g, 0.0)
    else
      var s := FloorMod(g.a * g.prev + g.c, g.m);
      QuotientInUnit(s as real, g.m as real);
      (g.(prev := s), s as real / g.m as real)
  }

  /** Wherever the program does not raise, the guarded draw is the program's draw. */
  lemma NextAgreesWithAsWritten(g: Gen)
    requires g.m != 0
    ensures NextAsWritten(g) == Some(Next(g))
  {
  }

  /** A generator built with modulus 0 raises on its first draw instead of reaching the
      guard meant for it; the guarded draw returns 0. */
  lemma ZeroModulusRaises()
    ensures var g := Gen(Seed, Multiplier, Increment, 0);
      NextAsWritten(g) == None && Next(g) == (g, 0.0)
  {
  }

  /** The state reached by `n` draws. */
  function Skip(g: Gen, n: nat): Gen
    decreases n
  {
    if n == 0 then g else Skip(Next(g).0, n - 1)
  }

  /** The first `n` variates drawn from `g`. */
  function Draws(g: Gen, n: nat): (us: seq<real>)
    ensures |us| == n
    ensures forall i :: 0 <= i < n ==> Unit(us[i])
    decreases n
  {
    if n == 0 then [] else [Next(g).1] + Draws(Next(g).0, n - 1)
  }

  /** Drawing never changes the recurrence parameters, so the default generator keeps its
      modulus 2^32 and its state stays in [0, 2^32) however many draws are taken. */
  lemma {:induction false} SkipKeepsParameters(g: Gen, n: nat)
    requires g.m > 0 && 0 <= g.prev < g.m
    ensures Skip(g, n).a == g.a && Skip(g, n).c == g.c && Skip(g, n).m == g.m
    ensures 0 <= Skip(g, n).prev < g.m
    decreases n
  {
    if n > 0 {
      SkipKeepsParameters(Next(g).0, n - 1);
    }
  }

  /** The (n+1)-th variate is the first variate of the state after `n` draws. */
  lemma {:induction false} DrawsAreSkips(g: Gen, n: nat, i: nat)
    requires i < n
    ensures Draws(g, n)[i] == Next(Skip(g, i)).1
    decreases n
  {
    if i > 0 {
      DrawsAreSkips(Next(g).0, n - 1, i - 1);
    }
  }

  /** The default generator never reaches the zero-modulus case: after any number of draws
      the guarded draw is exactly the program's draw. */
  lemma DefaultDrawsAsWritten(n: nat)
    ensures NextAsWritten(Skip(Default, n)) == Some(Next(Skip(Default, n)))
  {
    SkipKeepsParameters(Default, n);
    NextAgreesWithAsWritten(Skip(Default, n));
  }
}

=== FILE: network.dfy ===
/** The network simulator's state and its event handlers
    (simulador_rede_filas.py, class SimuladorRede: processar_chegada, iniciar_servico,
    processar_partida and one iteration of executar). */
module Network {
  import opened Wrappers
  import opened Errors
  import Lcg
  import opened Topology
  import opened Histogram
  import opened Queue
  import opened Events

  /** How the admission check reads the capacity K of a node. */
  datatype Admission =
    /** The program's check: only the waiting list is compared with K. */
    | QueueOnly
    /** K bounds the whole node, waiting plus in service, as in Kendall's notation. */
    | WholeSystem

  /** The simulator: clock, pending events, nodes by name, last customer identity issued. */
  datatype Sim = Sim(clock: real, events: seq<Event>, nodes: map<string, Node>, customers: nat, admission: Admission)

  /** The node accepts one more customer. */
  predicate Admits(admission: Admission, n: Node) {
    match n.cfg.capacity
    case None => true
    case Some(k) => (if admission == QueueOnly then |n.waiting| else Occupancy(n)) < k
  }

  /** No server is idle while a customer waits. */
  predicate NoIdleWhileWaiting(n: Node) {
    n.waiting != [] ==> forall j :: 0 <= j < |n.servers| ==> IsBusy(n.servers[j])
  }

  /** Customers a node has taken responsibility for: those present plus those it lost. */
  function Accounted(n: Node): nat {
    Occupancy(n) + n.lost
  }

  /** A handler leaves a node's configuration, time-in-state record and server count alone,
      and never decreases its loss counter. */
  predicate Kept(a: Node, b: Node) {
    a.cfg == b.cfg && a.hist == b.hist && a.last == b.last && |a.servers| == |b.servers| && a.lost <= b.lost
  }

  /** Every event of `q'` was pending in `q` already or is not earlier than `t`. */
  predicate NotEarlier(q: seq<Event>, q': seq<Event>, t: real) {
    forall e :: e in q' ==> e in q || e.time >= t
  }

  predicate NonNegative(nodes: map<string, Node>) {
    forall n :: n in nodes ==> NonNegativeBounds(nodes[n].cfg)
  }

  /** What a handler preserves: clock, node names, kept nodes, every pending event in a sorted
      event list, and new events no earlier than the clock when the interval bounds are
      non-negative. */
  predicate Frame(s: Sim, t: Sim) {
    && t.clock == s.clock && t.admission == s.admission
    && t.nodes.Keys == s.nodes.Keys
    && (forall n :: n in s.nodes ==> Kept(s.nodes[n], t.nodes[n]))
    && t.customers >= s.customers
    && multiset(s.events) <= multiset(t.events)
    && Sorted(t.events)
    && (TieFree(s.events) ==> TieFree(t.events))
    && (NonNegative(s.nodes) ==> NotEarlier(s.events, t.events, s.clock))
  }

  /** Every event of `q'` was already pending in `q` or belongs to one of the nodes `at`. */
  predicate AddsOnlyAt(q: seq<Event>, q': seq<Event>, at: set<string>) {
    forall x :: x in q' ==> x in q || x.node in at
  }

  lemma FrameTransitive(a: Sim, b: Sim, c: Sim)
    requires Frame(a, b) && Frame(b, c)
    ensures Frame(a, c)
  {
    if NonNegative(a.nodes) {
      assert NonNegative(b.nodes);
    }
  }

  /** One service start at server `i`: the head of the waiting list takes the server until
      its completion time, which lies in the service interval after the clock, and exactly one
      departure at that time is added to the event list. */
  predicate Started(before: Node, after: Node, q: seq<Event>, q': seq<Event>, clock: real, name: string, i: nat)
    requires i < |before.servers| && before.waiting != []
  {
    && after.cfg == before.cfg && after.hist == before.hist && after.last == before.last
    && after.lost == before.lost
    && after.gen == Lcg.Next(before.gen).0
    && after.waiting == before.waiting[1..]
    && |after.servers| == |before.servers|
    && var t := after.servers[i].completion;
    && after.servers == before.servers[i := Slot(Some(before.waiting[0]), t)]
    && (before.cfg.svcMin <= before.cfg.svcMax ==> clock + before.cfg.svcMin <= t <= clock + before.cfg.svcMax)
    && (before.cfg.svcMin >= 0.0 && before.cfg.svcMax >= 0.0 ==> t >= clock)
    && multiset(q') == multiset(q) + multiset{Event(t, Departure, name, Some(before.waiting[0]))}
  }

  /** `iniciar_servico`: serve the head of the waiting list at server `i`. */
  function StartService(node: Node, events: seq<Event>, clock: real, name: string, i: nat): (r: Result<(Node, seq<Event>), Error>)
    requires i < |node.servers| && Sorted(events)
    ensures node.waiting == [] ==> r == Ok((node, events))
    ensures r.Err? ==> r.error == UnorderedTie
    ensures r.Ok? && node.waiting != [] ==> Started(node, r.value.0, events, r.value.1, clock, name, i)
    ensures r.Ok? ==> Sorted(r.value.1) && (TieFree(events) ==> TieFree(r.value.1))
    ensures r.Ok? ==> forall m :: OwnArrivals(r.value.1, m) == OwnArrivals(events, m)
    ensures r.Ok? && NonNegativeBounds(node.cfg) ==> NotEarlier(events, r.value.1, clock)
    ensures r.Ok? && !IsBusy(node.servers[i]) ==> Occupancy(r.value.0) == Occupancy(node)
  {
    if node.waiting == [] then Ok((node, events))
    else
      var c := node.waiting[0];
      var drawn := ServiceTime(node);
      var slot := Slot(Some(c), clock + drawn.1);
      var e := Event(slot.completion, Departure, name, Some(c));
      match Schedule(events, e)
      case Err(x) => Err(x)
      case Ok(q) =>
        ScheduleAdds(events, e);
        BusyUpdate(node.servers, i, slot);
        Ok((drawn.0.(waiting := node.waiting[1..], servers := node.servers[i := slot]), q))
  }

  /** The server-fill loop from server `i` on: every idle server, in index order, takes the
      head of the waiting list while one is waiting. */
  function Fill(node: Node, events: seq<Event>, clock: real, name: string, i: nat): (r: Result<(Node, seq<Event>), Error>)
    requires i <= |node.servers| && Sorted(events)
    decreases |node.servers| - i
    ensures r.Err? ==> r.error == UnorderedTie
    ensures r.Ok? ==> Refilled(node, r.value.0, i)
    ensures r.Ok? ==> Extended(events, r.value.1, clock, node.cfg)
    ensures node.waiting == [] || (forall j :: i <= j < |node.servers| ==> IsBusy(node.servers[j])) ==> r == Ok((node, events))
  {
    if i == |node.servers| then Ok((node, events))
    else if !IsBusy(node.servers[i]) && node.waiting != [] then
      match StartService(node, events, clock, name, i)
      case Err(x) => Err(x)
      case Ok(started) =>
        var r := Fill(started.0, started.1, clock, name, i + 1);
        if r.Ok? then
          RefilledStart(node, started.0, events, started.1, r.value.0, clock, name, i);
          ExtendedTwice(events, started.1, r.value.1, clock, node.cfg);
          r
        else r
    else
      var r := Fill(node, events, clock, name, i + 1);
      if r.Ok? then RefilledSkip(node, r.value.0, i); r else r
  }

  /** `q` is `events` with departures added: still sorted, tie-free if `events` was, the
      same arrivals, and, when the node's bounds are non-negative, nothing added earlier than
      `clock`. */
  ghost predicate Extended(events: seq<Event>, q: seq<Event>, clock: real, cfg: NodeConfig) {
    && Sorted(q) && (TieFree(events) ==> TieFree(q))
    && (NonNegativeBounds(cfg) ==> NotEarlier(events, q, clock))
    && forall m :: OwnArrivals(q, m) == OwnArrivals(events, m)
  }

  lemma ExtendedTwice(a: seq<Event>, b: seq<Event>, c: seq<Event>, clock: real, cfg: NodeConfig)
    requires Extended(a, b, clock, cfg) && Extended(b, c, clock, cfg)
    ensures Extended(a, c, clock, cfg)
  {
  }

  /** What the fill loop from server `i` does to the node: servers before `i` and everything
      but the servers and the waiting list are untouched, the population and the loss count
      are unchanged, the waiting list loses a prefix, and customers are left waiting only if
      every server from `i` on is busy. */
  predicate Refilled(node: Node, after: Node, i: nat)
    requires i <= |node.servers|
  {
    && Kept(node, after) && after.lost == node.lost
    && Occupancy(after) == Occupancy(node)
    && (forall j :: 0 <= j < i ==> after.servers[j] == node.servers[j])
    && |after.waiting| <= |node.waiting|
    && after.waiting == node.waiting[|node.waiting| - |after.waiting|..]
    && (after.waiting != [] ==> forall j :: i <= j < |node.servers| ==> IsBusy(after.servers[j]))
  }

  /** Starting service at idle server `i` and then filling from `i + 1` fills from `i`. */
  lemma RefilledStart(node: Node, started: Node, q: seq<Event>, q': seq<Event>, after: Node, clock: real, name: string, i: nat)
    requires i < |node.servers| && node.waiting != [] && !IsBusy(node.servers[i])
    requires Started(node, started, q, q', clock, name, i) && Occupancy(started) == Occupancy(node)
    requires Refilled(started, after, i + 1)
    ensures Refilled(node, after, i)
  {
    SuffixOfTail(node.waiting, |after.waiting|);
  }

  /** Passing over server `i`, busy or with nobody waiting, and filling from `i + 1` fills
      from `i`. */
  lemma RefilledSkip(node: Node, after: Node, i: nat)
    requires i < |node.servers| && (IsBusy(node.servers[i]) || node.waiting == [])
    requires Refilled(node, after, i + 1)
    ensures Refilled(node, after, i)
  {
  }

  /** A suffix of the tail is the suffix of the same length of the whole. */
  lemma SuffixOfTail<T>(s: seq<T>, k: nat)
    requires s != [] && k <= |s| - 1
    ensures s[1..][|s| - 1 - k..] == s[|s| - k..]
  {
  }

  /** Idle servers among indices [lo, hi). */
  function IdleBetween(servers: seq<Slot>, lo: nat, hi: nat): nat
    requires lo <= hi <= |servers|
    decreases hi - lo
  {
    if lo == hi then 0 else (if IsBusy(servers[lo]) then 0 else 1) + IdleBetween(servers, lo + 1, hi)
  }

  lemma {:induction false} IdleBetweenAgree(a: seq<Slot>, b: seq<Slot>, lo: nat, hi: nat)
    requires lo <= hi <= |a| && hi <= |b|
    requires forall k :: lo <= k < hi ==> IsBusy(a[k]) == IsBusy(b[k])
    ensures IdleBetween(a, lo, hi) == IdleBetween(b, lo, hi)
    decreases hi - lo
  {
    if lo < hi {
      IdleBetweenAgree(a, b, lo + 1, hi);
    }
  }

  function Min(a: int, b: int): int {
    if a < b then a else b
  }

  /** Server `j` after the fill loop started at `i`: a busy server is untouched, and the idle
      ones, counted from `i`, take the waiting customers in arrival order while any are left. */
  predicate Served(before: Node, after: Node, i: nat, j: nat)
    requires i <= j < |before.servers| && |after.servers| == |before.servers|
  {
    if IsBusy(before.servers[j]) then after.servers[j] == before.servers[j]
    else
      var k := IdleBetween(before.servers, i, j);
      if k < |before.waiting| then after.servers[j].occupant == Some(before.waiting[k])
      else after.servers[j] == before.servers[j]
  }

  /** Inductive step of FillIsFifo when server `i` takes the head of the waiting list. */
  lemma ServedAfterStart(node: Node, n1: Node, after: Node, i: nat, i': nat)
    requires i' == i + 1 && i < |node.servers| && !IsBusy(node.servers[i]) && node.waiting != []
    requires n1.waiting == node.waiting[1..] && |n1.servers| == |node.servers| == |after.servers|
    requires n1.servers[i].occupant == Some(node.waiting[0])
    requires forall k :: 0 <= k < |node.servers| && k != i ==> n1.servers[k] == node.servers[k]
    requires after.servers[i] == n1.servers[i]
    requires forall j :: i' <= j < |node.servers| ==> Served(n1, after, i', j)
    requires |n1.waiting| - |after.waiting| == Min(IdleBetween(n1.servers, i + 1, |node.servers|), |n1.waiting|)
    ensures |node.waiting| - |after.waiting| == Min(IdleBetween(node.servers, i, |node.servers|), |node.waiting|)
    ensures forall j :: i <= j < |node.servers| ==> Served(node, after, i, j)
  {
    IdleBetweenAgree(node.servers, n1.servers, i + 1, |node.servers|);
    forall j | i <= j < |node.servers| ensures Served(node, after, i, j) {
      if j > i {
        IdleBetweenAgree(node.servers, n1.servers, i + 1, j);
        assert Served(n1, after, i + 1, j);
      }
    }
  }

  /** Inductive step of FillIsFifo when server `i` is passed over. */
  lemma ServedAfterSkip(node: Node, after: Node, i: nat, i': nat)
    requires i' == i + 1 && i < |node.servers| && (IsBusy(node.servers[i]) || node.waiting == [])
    requires |after.servers| == |node.servers| && after.servers[i] == node.servers[i]
    requires forall j :: i' <= j < |node.servers| ==> Served(node, after, i', j)
    requires |node.waiting| - |after.waiting| == Min(IdleBetween(node.servers, i + 1, |node.servers|), |node.waiting|)
    ensures |node.waiting| - |after.waiting| == Min(IdleBetween(node.servers, i, |node.servers|), |node.waiting|)
    ensures forall j :: i <= j < |node.servers| ==> Served(node, after, i, j)
  {
    forall j | i <= j < |node.servers| ensures Served(node, after, i, j) {
      if j > i {
        assert Served(node, after, i + 1, j);
      }
    }
  }

  /** The fill loop from server `i` served in FIFO order: as many customers left the head of
      the waiting list as there were idle servers (or customers), and the k-th idle server took
      the k-th of them. */
  predicate FifoFrom(node: Node, after: Node, i: nat)
    requires i <= |node.servers| && |after.servers| == |node.servers|
  {
    && |node.waiting| - |after.waiting| == Min(IdleBetween(node.servers, i, |node.servers|), |node.waiting|)
    && forall j :: i <= j < |node.servers| ==> Served(node, after, i, j)
  }

  /** The server-fill loop serves in FIFO order. */
  lemma {:induction false} FillIsFifo(node: Node, events: seq<Event>, clock: real, name: string, i: nat)
    requires i <= |node.servers| && Sorted(events) && Fill(node, events, clock, name, i).Ok?
    ensures FifoFrom(node, Fill(node, events, clock, name, i).value.0, i)
    decreases |node.servers| - i, 1
  {
    if i < |node.servers| {
      if !IsBusy(node.servers[i]) && node.waiting != [] {
        FillIsFifoStart(node, events, clock, name, i);
      } else {
        FillIsFifoSkip(node, events, clock, name, i);
      }
    }
  }

  lemma {:induction false} FillIsFifoStart(node: Node, events: seq<Event>, clock: real, name: string, i: nat)
    requires i < |node.servers| && Sorted(events) && Fill(node, events, clock, name, i).Ok?
    requires !IsBusy(node.servers[i]) && node.waiting != []
    ensures FifoFrom(node, Fill(node, events, clock, name, i).value.0, i)
    decreases |node.servers| - i, 0
  {
    var after := Fill(node, events, clock, name, i).value.0;
    var n1 := StartService(node, events, clock, name, i).value.0;
    var q1 := StartService(node, events, clock, name, i).value.1;
    assert after == Fill(n1, q1, clock, name, i + 1).value.0;
    FillIsFifo(n1, q1, clock, name, i + 1);
    ServedAfterStart(node, n1, after, i, i + 1);
  }

  lemma {:induction false} FillIsFifoSkip(node: Node, events: seq<Event>, clock: real, name: string, i: nat)
    requires i < |node.servers| && Sorted(events) && Fill(node, events, clock, name, i).Ok?
    requires IsBusy(node.servers[i]) || node.waiting == []
    ensures FifoFrom(node, Fill(node, events, clock, name, i).value.0, i)
    decreases |node.servers| - i, 0
  {
    var after := Fill(node, events, clock, name, i).value.0;
    assert after == Fill(node, events, clock, name, i + 1).value.0;
    FillIsFifo(node, events, clock, name, i + 1);
    ServedAfterSkip(node, after, i, i + 1);
  }

  /** Every customer waiting when the fill loop starts is still in the node when it ends:
      either still waiting or in service. */
  lemma {:induction false} FillKeepsCustomers(node: Node, events: seq<Event>, clock: real, name: string, i: nat)
    requires i <= |node.servers| && Sorted(events) && Fill(node, events, clock, name, i).Ok?
    ensures forall x :: x in node.waiting ==> Present(Fill(node, events, clock, name, i).value.0, x)
    decreases |node.servers| - i, 1
  {
    if i < |node.servers| {
      if !IsBusy(node.servers[i]) && node.waiting != [] {
        FillKeepsStart(node, events, clock, name, i);
      } else {
        assert Fill(node, events, clock, name, i) == Fill(node, events, clock, name, i + 1);
        FillKeepsCustomers(node, events, clock, name, i + 1);
      }
    }
  }

  lemma {:induction false} FillKeepsStart(node: Node, events: seq<Event>, clock: real, name: string, i: nat)
    requires i < |node.servers| && Sorted(events) && Fill(node, events, clock, name, i).Ok?
    requires !IsBusy(node.servers[i]) && node.waiting != []
    ensures forall x :: x in node.waiting ==> Present(Fill(node, events, clock, name, i).value.0, x)
    decreases |node.servers| - i, 0
  {
    var after := Fill(node, events, clock, name, i).value.0;
    var started := StartService(node, events, clock, name, i).value;
    assert after == Fill(started.0, started.1, clock, name, i + 1).value.0;
    FillKeepsCustomers(started.0, started.1, clock, name, i + 1);
    assert after.servers[i] == started.0.servers[i];
    KeptOnStart(node, started.0, after, i);
  }

  /** Starting service on server `i` keeps every waiting customer in the node: the head is
      in service there and the rest still wait (or were placed later). */
  lemma KeptOnStart(node: Node, started: Node, after: Node, i: nat)
    requires node.waiting != [] && started.waiting == node.waiting[1..]
    requires i < |after.servers| && after.servers[i].occupant == Some(node.waiting[0])
    requires forall x :: x in started.waiting ==> Present(after, x)
    ensures forall x :: x in node.waiting ==> Present(after, x)
  {
    forall x | x in node.waiting ensures Present(after, x) {
      if x != node.waiting[0] {
        assert x in node.waiting[1..];
      }
    }
  }

  /** Every departure the fill loop adds belongs to the node it fills. */
  lemma {:induction false} DeparturesAt(before: seq<Slot>, after: seq<Slot>, name: string, lo: nat)
    requires lo <= |before| && |after| == |before|
    ensures forall x :: x in Departures(before, after, name, lo) ==> x.node == name
    decreases |before| - lo
  {
    if lo < |before| {
      DeparturesAt(before, after, name, lo + 1);
    }
  }

  /** The fill loop keeps every customer of the node: busy servers are untouched and every
      waiting customer is still waiting or in service. */
  lemma FillRetains(node: Node, after: Node)
    requires |after.servers| == |node.servers| && FifoFrom(node, after, 0)
    requires forall x :: x in node.waiting ==> Present(after, x)
    ensures Retains(node, after)
  {
    forall x | Present(node, x) ensures Present(after, x) {
      if x !in node.waiting {
        var j :| 0 <= j < |node.servers| && node.servers[j].occupant == Some(x);
        assert Served(node, after, 0, j);
      }
    }
  }

  /** The departures scheduled for servers in [lo, |before|) that were idle in `before` and
      are busy in `after`: one per such server, at its completion time. */
  function Departures(before: seq<Slot>, after: seq<Slot>, name: string, lo: nat): multiset<Event>
    requires lo <= |before| && |after| == |before|
    decreases |before| - lo
  {
    if lo == |before| then multiset{}
    else
      (if !IsBusy(before[lo]) && IsBusy(after[lo])
       then multiset{Event(after[lo].completion, Departure, name, after[lo].occupant)}
       else multiset{})
      + Departures(before, after, name, lo + 1)
  }

  lemma {:induction false} DeparturesAgree(a: seq<Slot>, b: seq<Slot>, after: seq<Slot>, name: string, lo: nat)
    requires lo <= |a| && |b| == |a| && |after| == |a|
    requires forall k :: lo <= k < |a| ==> a[k] == b[k]
    ensures Departures(a, after, name, lo) == Departures(b, after, name, lo)
    decreases |a| - lo
  {
    if lo < |a| {
      DeparturesAgree(a, b, after, name, lo + 1);
    }
  }

  /** The fill loop adds to the pending events exactly one departure at `name` per server it
      filled, and removes none. */
  lemma {:induction false} FillDepartures(node: Node, events: seq<Event>, clock: real, name: string, i: nat)
    requires i <= |node.servers| && Sorted(events) && Fill(node, events, clock, name, i).Ok?
    ensures var r := Fill(node, events, clock, name, i).value;
      multiset(r.1) == multiset(events) + Departures(node.servers, r.0.servers, name, i)
    decreases |node.servers| - i, 1
  {
    if i < |node.servers| {
      if !IsBusy(node.servers[i]) && node.waiting != [] {
        FillDeparturesStart(node, events, clock, name, i);
      } else {
        FillDeparturesSkip(node, events, clock, name, i);
      }
    }
  }

  lemma {:induction false} FillDeparturesSkip(node: Node, events: seq<Event>, clock: real, name: string, i: nat)
    requires i < |node.servers| && Sorted(events) && Fill(node, events, clock, name, i).Ok?
    requires IsBusy(node.servers[i]) || node.waiting == []
    ensures var r := Fill(node, events, clock, name, i).value;
      multiset(r.1) == multiset(events) + Departures(node.servers, r.0.servers, name, i)
    decreases |node.servers| - i, 0
  {
    var r := Fill(node, events, clock, name, i).value;
    assert r == Fill(node, events, clock, name, i + 1).value;
    FillDepartures(node, events, clock, name, i + 1);
    assert IsBusy(node.servers[i]) || r.0.servers[i] == node.servers[i];
    DeparturesNone(node.servers, r.0.servers, name, i);
  }

  lemma {:induction false} FillDeparturesStart(node: Node, events: seq<Event>, clock: real, name: string, i: nat)
    requires i < |node.servers| && Sorted(events) && Fill(node, events, clock, name, i).Ok?
    requires !IsBusy(node.servers[i]) && node.waiting != []
    ensures var r := Fill(node, events, clock, name, i).value;
      multiset(r.1) == multiset(events) + Departures(node.servers, r.0.servers, name, i)
    decreases |node.servers| - i, 0
  {
    var r := Fill(node, events, clock, name, i).value;
    var started := StartService(node, events, clock, name, i).value;
    assert r == Fill(started.0, started.1, clock, name, i + 1).value;
    FillDepartures(started.0, started.1, clock, name, i + 1);
    DeparturesAgree(node.servers, started.0.servers, r.0.servers, name, i + 1);
    DeparturesOne(node.servers, r.0.servers, name, i, events, started.1, r.1);
  }

  /** Server `lo` adds no departure when it was busy or is still as it was. */
  lemma DeparturesNone(before: seq<Slot>, after: seq<Slot>, name: string, lo: nat)
    requires lo < |before| && |after| == |before|
    requires IsBusy(before[lo]) || after[lo] == before[lo]
    ensures Departures(before, after, name, lo) == Departures(before, after, name, lo + 1)
  {
  }

  /** Server `lo` was idle and now serves someone: its departure is the one scheduled. */
  lemma DeparturesOne(before: seq<Slot>, after: seq<Slot>, name: string, lo: nat, q: seq<Event>, q1: seq<Event>, q2: seq<Event>)
    requires lo < |before| && |after| == |before| && !IsBusy(before[lo]) && IsBusy(after[lo])
    requires multiset(q1) == multiset(q) + multiset{Event(after[lo].completion, Departure, name, after[lo].occupant)}
    requires multiset(q2) == multiset(q1) + Departures(before, after, name, lo + 1)
    ensures multiset(q2) == multiset(q) + Departures(before, after, name, lo)
  {
  }

  /** Runs the fill loop over all servers of node `name`. */
  function FillAt(s: Sim, name: string): (r: Result<Sim, Error>)
    requires name in s.nodes && Sorted(s.events)
    ensures r.Err? ==> r.error == UnorderedTie
    ensures r.Ok? ==> Frame(s, r.value) && r.value.customers == s.customers
    ensures r.Ok? ==> forall m :: m in s.nodes && m != name ==> r.value.nodes[m] == s.nodes[m]
    ensures r.Ok? ==> Occupancy(r.value.nodes[name]) == Occupancy(s.nodes[name])
    ensures r.Ok? ==> r.value.nodes[name].lost == s.nodes[name].lost
    ensures r.Ok? ==> NoIdleWhileWaiting(r.value.nodes[name])
    ensures r.Ok? ==> forall m :: OwnArrivals(r.value.events, m) == OwnArrivals(s.events, m)
    ensures r.Ok? ==>
      multiset(r.value.events) == multiset(s.events) + Departures(s.nodes[name].servers, r.value.nodes[name].servers, name, 0)
    ensures r.Ok? ==> forall x :: x in s.nodes[name].waiting ==> Present(r.value.nodes[name], x)
    ensures r.Ok? ==> Retains(s.nodes[name], r.value.nodes[name])
    ensures r.Ok? ==> AddsOnlyAt(s.events, r.value.events, {name})
  {
    match Fill(s.nodes[name], s.events, s.clock, name, 0)
    case Err(x) => Err(x)
    case Ok(filled) =>
      var node := s.nodes[name];
      FillDepartures(node, s.events, s.clock, name, 0);
      FillKeepsCustomers(node, s.events, s.clock, name, 0);
      FillIsFifo(node, s.events, s.clock, name, 0);
      FillRetains(node, filled.0);
      DeparturesAt(node.servers, filled.0.servers, name, 0);
      assert forall x :: x in filled.1 ==> x in s.events || x.node == name by {
        forall x | x in filled.1 ensures x in s.events || x.node == name {
          assert x in multiset(filled.1);
        }
      }
      Ok(s.(events := filled.1, nodes := s.nodes[name := filled.0]))
  }

  /** The state after a rejected arrival: one more loss at `name`, the customer counter bumped
      for a new customer, and nothing else changed. */
  function Rejected(s: Sim, name: string, who: Option<Customer>): (r: Sim)
    requires name in s.nodes && Sorted(s.events)
    ensures Frame(s, r) && r.events == s.events
    ensures forall m :: m in s.nodes && m != name ==> r.nodes[m] == s.nodes[m]
    ensures r.customers == s.customers + (if who.None? then 1 else 0)
    ensures r.nodes[name] == s.nodes[name].(lost := s.nodes[name].lost + 1)
    ensures Occupancy(r.nodes[name]) == Occupancy(s.nodes[name])
    ensures Accounted(r.nodes[name]) == Accounted(s.nodes[name]) + 1
  {
    s.(customers := s.customers + (if who.None? then 1 else 0),
       nodes := s.nodes[name := s.nodes[name].(lost := s.nodes[name].lost + 1)])
  }

  /** Schedules the node's next own arrival when it has an arrival stream. */
  function Reschedule(node: Node, events: seq<Event>, clock: real, name: string): (r: Result<(Node, seq<Event>), Error>)
    requires Sorted(events)
    ensures r.Err? ==> r.error == UnorderedTie
    ensures r.Ok? ==> r.value.0 == node.(gen := r.value.0.gen)
    ensures r.Ok? ==> Sorted(r.value.1) && (TieFree(events) ==> TieFree(r.value.1))
    ensures r.Ok? && NonNegativeBounds(node.cfg) ==> NotEarlier(events, r.value.1, clock)
    ensures r.Ok? ==> OwnArrivals(r.value.1, name) == OwnArrivals(events, name) + (if HasOwnArrivals(node.cfg) then 1 else 0)
    ensures r.Ok? ==> forall m :: m != name ==> OwnArrivals(r.value.1, m) == OwnArrivals(events, m)
    ensures r.Ok? ==> r.value.0.gen == if HasOwnArrivals(node.cfg) then Lcg.Next(node.gen).0 else node.gen
    ensures r.Ok? ==> forall x :: x in r.value.1 ==> x in events || x.node == name
    ensures r.Ok? ==> multiset(events) <= multiset(r.value.1)
    ensures r.Ok? ==> |r.value.1| == |events| + (if HasOwnArrivals(node.cfg) then 1 else 0)
    ensures (forall x :: x in events ==> x.node != name) ==> r.Ok?
    ensures !HasOwnArrivals(node.cfg) ==> r == Ok((node, events))
  {
    if !HasOwnArrivals(node.cfg) then Ok((node, events))
    else
      var drawn := ArrivalTime(node, clock);
      var e := Event(drawn.1.value, Arrival, name, None);
      match Schedule(events, e)
      case Err(x) => Err(x)
      case Ok(q) =>
        ScheduleAdds(events, e);
        Ok((drawn.0, q))
  }

  /** `processar_chegada`: a customer (None: a new one) arrives at node `name`. It is stamped
      for this node; if the waiting list has reached the capacity it is lost; otherwise it
      joins the waiting list, the node's next own arrival is scheduled, and idle servers fill. */
  function Arrive(s: Sim, name: string, who: Option<Customer>): (r: Result<Sim, Error>)
    requires Sorted(s.events)
    ensures name !in s.nodes ==> r == Err(UnknownNode(name))
    ensures r.Ok? ==> name in s.nodes && Frame(s, r.value)
    ensures r.Ok? ==> r.value.customers == s.customers + (if who.None? then 1 else 0)
    ensures r.Ok? ==> forall m :: m in s.nodes && m != name ==> r.value.nodes[m] == s.nodes[m]
    ensures r.Ok? ==> Accounted(r.value.nodes[name]) == Accounted(s.nodes[name]) + 1
    ensures r.Ok? ==> (r.value.nodes[name].lost == s.nodes[name].lost + 1 <==> !Admits(s.admission, s.nodes[name]))
    ensures r.Ok? && !Admits(s.admission, s.nodes[name]) ==> r.value == Rejected(s, name, who)
    ensures r.Ok? && Admits(s.admission, s.nodes[name]) ==>
      && r.value.nodes[name].lost == s.nodes[name].lost
      && NoIdleWhileWaiting(r.value.nodes[name])
      && OwnArrivals(r.value.events, name) == OwnArrivals(s.events, name) + (if HasOwnArrivals(s.nodes[name].cfg) then 1 else 0)
    ensures name in s.nodes && NextNode(s.nodes[name].cfg.routing).Ok? && !Admits(s.admission, s.nodes[name]) ==> r.Ok?
    ensures r.Err? ==> name !in s.nodes || NextNode(s.nodes[name].cfg.routing).Err? || r.error == UnorderedTie
    ensures r.Ok? ==> NextNode(s.nodes[name].cfg.routing).Ok?
    ensures r.Ok? && Admits(s.admission, s.nodes[name]) ==>
      Present(r.value.nodes[name], Stamp(s, name, who, NextNode(s.nodes[name].cfg.routing).value))
    ensures r.Ok? ==> Retains(s.nodes[name], r.value.nodes[name])
    ensures r.Ok? ==> AddsOnlyAt(s.events, r.value.events, {name})
  {
    if name !in s.nodes then Err(UnknownNode(name))
    else
      var node := s.nodes[name];
      var counter := if who.None? then s.customers + 1 else s.customers;
      match NextNode(node.cfg.routing)
      case Err(x) => Err(x)
      case Ok(next) =>
        if !Admits(s.admission, node) then Ok(Rejected(s, name, who))
        else Admit(s.(customers := counter), name, Stamp(s, name, who, next))
  }

  /** The customer as the arrival handler stamps it: a new customer takes the next identity
      and the clock as its arrival time, a routed one keeps both; either way it is placed at
      `name` and given the node's routing target. */
  function Stamp(s: Sim, name: string, who: Option<Customer>, next: Option<string>): (c: Customer)
    ensures c.current == name && c.next == next
    ensures who.None? ==> c.id == s.customers + 1 && c.arrivedAt == s.clock
    ensures who.Some? ==> c.id == who.value.id && c.arrivedAt == who.value.arrivedAt
  {
    if who.None? then Customer(s.customers + 1, s.clock, name, next)
    else who.value.(current := name, next := next)
  }

  /** The admitted half of an arrival: the customer joins the end of the waiting list, the
      node's next own arrival is scheduled, and idle servers fill. */
  function Admit(s: Sim, name: string, c: Customer): (r: Result<Sim, Error>)
    requires name in s.nodes && Sorted(s.events)
    ensures r.Err? ==> r.error == UnorderedTie
    ensures r.Ok? ==> Frame(s, r.value) && r.value.customers == s.customers
    ensures r.Ok? ==> forall m :: m in s.nodes && m != name ==> r.value.nodes[m] == s.nodes[m]
    ensures r.Ok? ==> Occupancy(r.value.nodes[name]) == Occupancy(s.nodes[name]) + 1
    ensures r.Ok? ==> r.value.nodes[name].lost == s.nodes[name].lost
    ensures r.Ok? ==> NoIdleWhileWaiting(r.value.nodes[name])
    ensures r.Ok? ==> OwnArrivals(r.value.events, name) == OwnArrivals(s.events, name) + (if HasOwnArrivals(s.nodes[name].cfg) then 1 else 0)
    ensures r.Ok? ==> Present(r.value.nodes[name], c)
    ensures r.Ok? ==> Retains(s.nodes[name], r.value.nodes[name])
    ensures r.Ok? ==> AddsOnlyAt(s.events, r.value.events, {name})
  {
    match Enqueue(s, name, c)
    case Err(x) => Err(x)
    case Ok(s1) =>
      var r := FillAt(s1, name);
      if r.Ok? then
        FrameTransitive(s, s1, r.value);
        EnqueueRetains(s.nodes[name], s1.nodes[name], r.value.nodes[name], c);
        r
      else r
  }

  /** Joining the waiting list and then filling keeps every customer already in the node. */
  lemma EnqueueRetains(before: Node, queued: Node, after: Node, c: Customer)
    requires queued.waiting == before.waiting + [c] && queued.servers == before.servers
    requires Retains(queued, after)
    ensures Retains(before, after)
  {
    forall x | Present(before, x) ensures Present(after, x) {
      assert Present(queued, x);
    }
  }

  /** The customer joins the end of node `name`'s waiting list and the node's next own
      arrival is scheduled. */
  function Enqueue(s: Sim, name: string, c: Customer): (r: Result<Sim, Error>)
    requires name in s.nodes && Sorted(s.events)
    ensures r.Err? ==> r.error == UnorderedTie
    ensures r.Ok? ==> Frame(s, r.value) && r.value.customers == s.customers
    ensures r.Ok? ==> forall m :: m in s.nodes && m != name ==> r.value.nodes[m] == s.nodes[m]
    ensures r.Ok? ==> r.value.nodes[name].waiting == s.nodes[name].waiting + [c]
    ensures r.Ok? ==> r.value.nodes[name].servers == s.nodes[name].servers
    ensures r.Ok? ==> Occupancy(r.value.nodes[name]) == Occupancy(s.nodes[name]) + 1
    ensures r.Ok? ==> r.value.nodes[name].lost == s.nodes[name].lost
    ensures r.Ok? ==> OwnArrivals(r.value.events, name) == OwnArrivals(s.events, name) + (if HasOwnArrivals(s.nodes[name].cfg) then 1 else 0)
    ensures r.Ok? ==> |r.value.events| == |s.events| + (if HasOwnArrivals(s.nodes[name].cfg) then 1 else 0)
    ensures r.Ok? ==> AddsOnlyAt(s.events, r.value.events, {name})
  {
    var node := s.nodes[name];
    var queued := node.(waiting := node.waiting + [c]);
    match Reschedule(queued, s.events, s.clock, name)
    case Err(x) => Err(x)
    case Ok(rescheduled) =>
      var s1 := s.(events := rescheduled.1, nodes := s.nodes[name := rescheduled.0]);
      assert Occupancy(rescheduled.0) == Occupancy(node) + 1;
      NodeFrame(s, name, rescheduled.0, rescheduled.1);
      Ok(s1)
  }

  /** Replacing one node by a kept one and the event list by a sorted superset that adds
      nothing earlier than the clock (under non-negative bounds) keeps the frame. */
  lemma NodeFrame(s: Sim, name: string, n: Node, q: seq<Event>)
    requires name in s.nodes && Kept(s.nodes[name], n) && n.cfg == s.nodes[name].cfg
    requires Sorted(q) && multiset(s.events) <= multiset(q) && (TieFree(s.events) ==> TieFree(q))
    requires NonNegativeBounds(s.nodes[name].cfg) ==> NotEarlier(s.events, q, s.clock)
    ensures Frame(s, s.(events := q, nodes := s.nodes[name := n]))
  {
  }

  /** `if cliente.proxima_fila:` is false for None and for the empty name. */
  predicate Leaves(c: Customer) {
    c.next.None? || c.next.value == ""
  }

  /** The node a departing customer is routed to, if any. */
  function Target(c: Customer): set<string> {
    if Leaves(c) then {} else {c.next.value}
  }

  /** The routing half of a departure: a customer with a next node arrives there, stamped
      with the clock; any other customer leaves the network. */
  function Route(s: Sim, c: Customer): (r: Result<Sim, Error>)
    requires Sorted(s.events)
    ensures Leaves(c) ==> r == Ok(s)
    ensures r.Ok? ==> Frame(s, r.value) && r.value.customers == s.customers
    ensures r.Ok? ==> forall m :: m in s.nodes ==>
      Accounted(r.value.nodes[m]) == Accounted(s.nodes[m]) + (if !Leaves(c) && m == c.next.value then 1 else 0)
    ensures r.Ok? ==> forall m :: m in s.nodes && (Leaves(c) || m != c.next.value) ==> r.value.nodes[m] == s.nodes[m]
    ensures r.Ok? ==> forall m :: m in s.nodes ==> Retains(s.nodes[m], r.value.nodes[m])
    ensures r.Ok? ==> AddsOnlyAt(s.events, r.value.events, Target(c))
  {
    if Leaves(c) then Ok(s)
    else Arrive(s, c.next.value, Some(Customer(c.id, s.clock, c.next.value, None)))
  }

  /** `processar_partida`: the first server holding the customer's identity is freed (a
      customer found in no server is ignored); the customer is passed on to its next node as
      an arrival stamped with the clock, or leaves; then idle servers of this node fill. */
  function Depart(s: Sim, name: string, who: Option<Customer>): (r: Result<Sim, Error>)
    requires Sorted(s.events)
    ensures name !in s.nodes ==> r == Err(UnknownNode(name))
    ensures name in s.nodes && who.None? ==> r == Err(MissingCustomer)
    ensures r.Ok? ==> name in s.nodes && who.Some? && Frame(s, r.value)
    ensures r.Ok? ==> r.value.customers == s.customers
    ensures r.Ok? ==> NoIdleWhileWaiting(r.value.nodes[name])
    ensures r.Ok? ==> forall m :: m in s.nodes && m != name && (Leaves(who.value) || m != who.value.next.value) ==>
      r.value.nodes[m] == s.nodes[m]
    ensures r.Ok? ==> forall x :: Present(s.nodes[name], x) && x.id != who.value.id ==> Present(r.value.nodes[name], x)
    ensures r.Ok? ==> forall m :: m in s.nodes && m != name ==> Retains(s.nodes[m], r.value.nodes[m])
    ensures r.Ok? ==> AddsOnlyAt(s.events, r.value.events, {name} + Target(who.value))
  {
    if name !in s.nodes then Err(UnknownNode(name))
    else if who.None? then Err(MissingCustomer)
    else
      var s1 := Free(s, name, who.value.id);
      match Route(s1, who.value)
      case Err(x) => Err(x)
      case Ok(s2) =>
        FrameTransitive(s, s1, s2);
        var r := FillAt(s2, name);
        if r.Ok? then FrameTransitive(s, s2, r.value); r else r
  }

  /** The release half of a departure: the first server of node `name` holding customer `id`
      is freed, if there is one. */
  function Free(s: Sim, name: string, id: int): (r: Sim)
    requires name in s.nodes && Sorted(s.events)
    ensures Frame(s, r) && r.customers == s.customers && r.events == s.events
    ensures r.nodes.Keys == s.nodes.Keys
    ensures forall m :: m in s.nodes && m != name ==> r.nodes[m] == s.nodes[m]
    ensures r.nodes[name].waiting == s.nodes[name].waiting && r.nodes[name].lost == s.nodes[name].lost
    ensures r.nodes[name].servers == Release(s.nodes[name].servers, id)
    ensures Accounted(r.nodes[name]) + (if FirstHolder(s.nodes[name].servers, id).Some? then 1 else 0) == Accounted(s.nodes[name])
    ensures forall x :: Present(s.nodes[name], x) && x.id != id ==> Present(r.nodes[name], x)
  {
    var node := s.nodes[name];
    ReleaseKeeps(node.servers, id);
    s.(nodes := s.nodes[name := node.(servers := Release(node.servers, id))])
  }

  /** Occupancy plus losses per node across a departure: one less at the departing node when
      a server held the customer, one more at its next node, no change elsewhere. */
  lemma DepartConserves(s: Sim, name: string, c: Customer)
    requires Sorted(s.events) && Depart(s, name, Some(c)).Ok?
    ensures var t := Depart(s, name, Some(c)).value;
      forall m :: m in s.nodes ==>
        Accounted(t.nodes[m]) + (if m == name && FirstHolder(s.nodes[name].servers, c.id).Some? then 1 else 0)
        == Accounted(s.nodes[m]) + (if !Leaves(c) && m == c.next.value then 1 else 0)
  {
    forall m | m in s.nodes
      ensures Accounted(Depart(s, name, Some(c)).value.nodes[m])
           + (if m == name && FirstHolder(s.nodes[name].servers, c.id).Some? then 1 else 0)
           == Accounted(s.nodes[m]) + (if !Leaves(c) && m == c.next.value then 1 else 0)
    {
      DepartConservesAt(s, name, c, m);
    }
  }

  lemma DepartConservesAt(s: Sim, name: string, c: Customer, m: string)
    requires Sorted(s.events) && Depart(s, name, Some(c)).Ok? && m in s.nodes
    ensures Accounted(Depart(s, name, Some(c)).value.nodes[m])
          + (if m == name && FirstHolder(s.nodes[name].servers, c.id).Some? then 1 else 0)
         == Accounted(s.nodes[m]) + (if !Leaves(c) && m == c.next.value then 1 else 0)
  {
    StagesConserve(s, name, c, m);
  }

  /** The same count, stated over the three stages of a departure. */
  lemma StagesConserve(s: Sim, name: string, c: Customer, m: string)
    requires Sorted(s.events) && name in s.nodes && m in s.nodes
    requires Route(Free(s, name, c.id), c).Ok?
    requires FillAt(Route(Free(s, name, c.id), c).value, name).Ok?
    ensures Accounted(FillAt(Route(Free(s, name, c.id), c).value, name).value.nodes[m])
          + (if m == name && FirstHolder(s.nodes[name].servers, c.id).Some? then 1 else 0)
         == Accounted(s.nodes[m]) + (if !Leaves(c) && m == c.next.value then 1 else 0)
  {
    var s1 := Free(s, name, c.id);
    RouteCounts(s1, c, m);
    FillAtCounts(Route(s1, c).value, name, m);
  }

  /** Route's count at one node, with the target's extra customer. */
  lemma RouteCounts(s: Sim, c: Customer, m: string)
    requires Sorted(s.events) && m in s.nodes && Route(s, c).Ok?
    ensures Sorted(Route(s, c).value.events) && m in Route(s, c).value.nodes
    ensures Accounted(Route(s, c).value.nodes[m]) == Accounted(s.nodes[m]) + (if !Leaves(c) && m == c.next.value then 1 else 0)
  {
  }

  /** Filling one node's servers leaves every node's count alone. */
  lemma FillAtCounts(s: Sim, name: string, m: string)
    requires Sorted(s.events) && name in s.nodes && m in s.nodes && FillAt(s, name).Ok?
    ensures Accounted(FillAt(s, name).value.nodes[m]) == Accounted(s.nodes[m])
  {
    if m != name {
      assert FillAt(s, name).value.nodes[m] == s.nodes[m];
    }
  }

  /** A node after a main-loop step, against the node before it: same configuration and
      server count, updated at `now`, with the elapsed time credited to the level it was at. */
  ghost predicate Credited(before: Node, after: Node, now: real) {
    && after.cfg == before.cfg
    && |after.servers| == |before.servers|
    && after.last == now
    && Total(after.hist) == Total(before.hist) + (now - before.last)
    && TimeAt(after.hist, Occupancy(before)) == TimeAt(before.hist, Occupancy(before)) + (now - before.last)
    && (forall l :: l != Occupancy(before) ==> TimeAt(after.hist, l) == TimeAt(before.hist, l))
  }

  lemma KeptCredited(before: Node, after: Node, now: real)
    requires Kept(Observe(before, now), after)
    ensures Credited(before, after, now)
  {
  }

  /** Credits every node's elapsed time to its current occupancy level (the loop over all
      nodes in `executar`). */
  function ObserveAll(nodes: map<string, Node>, now: real): (r: map<string, Node>)
    ensures r.Keys == nodes.Keys
    ensures forall n :: n in nodes ==> r[n] == Observe(nodes[n], now)
  {
    map n | n in nodes :: Observe(nodes[n], now)
  }

  /** One iteration of the main loop: pop the earliest event, move the clock to it, credit
      every node's time-in-state record, then dispatch by kind. */
  function Step(s: Sim): (r: Result<Sim, Error>)
    requires s.events != [] && Sorted(s.events)
    ensures r.Ok? ==> r.value.clock == s.events[0].time
    ensures r.Ok? ==> r.value.nodes.Keys == s.nodes.Keys && r.value.admission == s.admission
    ensures r.Ok? ==> Sorted(r.value.events) && r.value.customers >= s.customers
    ensures r.Ok? && TieFree(s.events) ==> TieFree(r.value.events)
    ensures r.Ok? ==> forall n :: n in s.nodes ==> Credited(s.nodes[n], r.value.nodes[n], r.value.clock)
    ensures r.Ok? && NonNegative(s.nodes) ==>
      forall e :: e in r.value.events ==> e in s.events[1..] || e.time >= r.value.clock
    ensures r.Ok? ==> multiset(s.events[1..]) <= multiset(r.value.events)
  {
    var e := s.events[0];
    SortedTail(s.events);
    assert TieFree(s.events) ==> TieFree(s.events[1..]) by {
      if TieFree(s.events) { TieFreeTail(s.events); }
    }
    var observed := s.(clock := e.time, events := s.events[1..], nodes := ObserveAll(s.nodes, e.time));
    var r := Dispatch(observed, e);
    if r.Err? then r
    else
      assert forall n :: n in s.nodes ==> Credited(s.nodes[n], r.value.nodes[n], e.time) by {
        forall n | n in s.nodes ensures Credited(s.nodes[n], r.value.nodes[n], e.time) {
          KeptCredited(s.nodes[n], r.value.nodes[n], e.time);
        }
      }
      assert NonNegative(s.nodes) ==> NonNegative(observed.nodes);
      r
  }

  /** Hands an event to the arrival or departure handler according to its kind. */
  function Dispatch(s: Sim, e: Event): (r: Result<Sim, Error>)
    requires Sorted(s.events)
    ensures r.Ok? ==> Frame(s, r.value) && r.value.customers >= s.customers
    ensures e.node !in s.nodes ==> r == Err(UnknownNode(e.node))
    ensures e.kind == Departure && e.who.None? && e.node in s.nodes ==> r == Err(MissingCustomer)
  {
    match e.kind
    case Arrival => Arrive(s, e.node, e.who)
    case Departure => Depart(s, e.node, e.who)
  }

  /** One customer entering node `m` through event `e`: an arrival enters its own node, a
      departing customer with a next node enters that node. */
  function Entering(e: Event, m: string): nat {
    if e.kind == Arrival then (if m == e.node then 1 else 0)
    else if e.who.Some? && !Leaves(e.who.value) && m == e.who.value.next.value then 1
    else 0
  }

  /** One customer leaving node `m` through event `e`: a departure frees the server of its
      own node that held the customer, if one did. */
  function Leaving(nodes: map<string, Node>, e: Event, m: string): nat {
    if e.kind == Departure && m == e.node && e.node in nodes && e.who.Some?
       && FirstHolder(nodes[e.node].servers, e.who.value.id).Some? then 1
    else 0
  }

  /** Occupancy plus losses at every node of `before` moves exactly by what event `e` brings
      in and takes out. */
  ghost predicate Accounts(before: map<string, Node>, after: map<string, Node>, e: Event) {
    forall m :: m in before ==>
      m in after && Accounted(after[m]) + Leaving(before, e, m) == Accounted(before[m]) + Entering(e, m)
  }

  /** The handler `Dispatch` picks moves the counts as the event says: an arrival adds one
      at its node, a departure moves one from its node to the customer's next node. */
  lemma DispatchAccounts(s: Sim, e: Event)
    requires Sorted(s.events) && Dispatch(s, e).Ok?
    ensures Accounts(s.nodes, Dispatch(s, e).value.nodes, e)
  {
    if e.kind == Arrival {
      assert Dispatch(s, e) == Arrive(s, e.node, e.who);
      ArriveAccounts(s, e);
    } else {
      assert Dispatch(s, e) == Depart(s, e.node, e.who);
      DepartAccounts(s, e);
    }
  }

  lemma ArriveAccounts(s: Sim, e: Event)
    requires Sorted(s.events) && e.kind == Arrival && Arrive(s, e.node, e.who).Ok?
    ensures Accounts(s.nodes, Arrive(s, e.node, e.who).value.nodes, e)
  {
    var t := Arrive(s, e.node, e.who).value;
    forall m | m in s.nodes
      ensures m in t.nodes && Accounted(t.nodes[m]) + Leaving(s.nodes, e, m) == Accounted(s.nodes[m]) + Entering(e, m)
    {
      if m != e.node {
        assert t.nodes[m] == s.nodes[m];
      }
    }
  }

  lemma DepartAccounts(s: Sim, e: Event)
    requires Sorted(s.events) && e.kind == Departure && e.who.Some? && Depart(s, e.node, e.who).Ok?
    ensures Accounts(s.nodes, Depart(s, e.node, e.who).value.nodes, e)
  {
    var t := Depart(s, e.node, e.who).value;
    forall m | m in s.nodes
      ensures m in t.nodes && Accounted(t.nodes[m]) + Leaving(s.nodes, e, m) == Accounted(s.nodes[m]) + Entering(e, m)
    {
      DepartConservesAt(s, e.node, e.who.value, m);
    }
  }

  /** A step of the main loop hands its popped event to the handler: every node's count
      moves exactly as that event says. Crediting time changes no count. */
  lemma StepAccounts(s: Sim)
    requires s.events != [] && Sorted(s.events) && Step(s).Ok?
    ensures Accounts(s.nodes, Step(s).value.nodes, s.events[0])
  {
    var e := s.events[0];
    SortedTail(s.events);
    var observed := s.(clock := e.time, events := s.events[1..], nodes := ObserveAll(s.nodes, e.time));
    assert Step(s) == Dispatch(observed, e);
    DispatchAccounts(observed, e);
    ObservedAccounts(s.nodes, e.time, Step(s).value.nodes, e);
  }

  /** Crediting time moves no count, so accounting from the credited nodes is accounting from
      the nodes before. */
  lemma ObservedAccounts(nodes: map<string, Node>, now: real, after: map<string, Node>, e: Event)
    requires Accounts(ObserveAll(nodes, now), after, e)
    ensures Accounts(nodes, after, e)
  {
    var observed := ObserveAll(nodes, now);
    forall m | m in nodes
      ensures Accounted(observed[m]) == Accounted(nodes[m]) && Leaving(observed, e, m) == Leaving(nodes, e, m)
    {
    }
  }

  /** Customer `x` at node `m` is the one event `e` releases: a departure at `m` of a
      customer with `x`'s identity. */
  predicate Released(e: Event, m: string, x: Customer) {
    e.kind == Departure && m == e.node && e.who.Some? && x.id == e.who.value.id
  }

  /** The nodes event `e` may schedule at: its own node and, for a departure, the
      customer's next node. */
  function Touched(e: Event): set<string> {
    {e.node} + (if e.kind == Departure && e.who.Some? then Target(e.who.value) else {})
  }

  /** Every customer in a node of `before`, except one the event releases, is still there. */
  ghost predicate RetainsExcept(before: map<string, Node>, after: map<string, Node>, e: Event) {
    forall m, x :: m in before && Present(before[m], x) && !Released(e, m, x) ==> m in after && Present(after[m], x)
  }

  /** The handler keeps every customer but the departing one, and schedules only at the
      nodes the event touches. */
  lemma DispatchRetains(s: Sim, e: Event)
    requires Sorted(s.events) && Dispatch(s, e).Ok?
    ensures RetainsExcept(s.nodes, Dispatch(s, e).value.nodes, e)
    ensures AddsOnlyAt(s.events, Dispatch(s, e).value.events, Touched(e))
  {
    if e.kind == Arrival {
      assert Dispatch(s, e) == Arrive(s, e.node, e.who);
      ArriveRetains(s, e);
    } else {
      assert Dispatch(s, e) == Depart(s, e.node, e.who);
      DepartRetains(s, e);
    }
  }

  lemma ArriveRetains(s: Sim, e: Event)
    requires Sorted(s.events) && e.kind == Arrival && Arrive(s, e.node, e.who).Ok?
    ensures RetainsExcept(s.nodes, Arrive(s, e.node, e.who).value.nodes, e)
    ensures AddsOnlyAt(s.events, Arrive(s, e.node, e.who).value.events, Touched(e))
  {
    var t := Arrive(s, e.node, e.who).value;
    forall m, x | m in s.nodes && Present(s.nodes[m], x) && !Released(e, m, x)
      ensures m in t.nodes && Present(t.nodes[m], x)
    {
      if m != e.node {
        assert t.nodes[m] == s.nodes[m];
      }
    }
  }

  lemma DepartRetains(s: Sim, e: Event)
    requires Sorted(s.events) && e.kind == Departure && e.who.Some? && Depart(s, e.node, e.who).Ok?
    ensures RetainsExcept(s.nodes, Depart(s, e.node, e.who).value.nodes, e)
    ensures AddsOnlyAt(s.events, Depart(s, e.node, e.who).value.events, Touched(e))
  {
    var t := Depart(s, e.node, e.who).value;
    forall m, x | m in s.nodes && Present(s.nodes[m], x) && !Released(e, m, x)
      ensures m in t.nodes && Present(t.nodes[m], x)
    {
      if m != e.node {
        assert Retains(s.nodes[m], t.nodes[m]);
      }
    }
  }

  /** A step of the main loop keeps every customer but the one its event releases, and
      every event it leaves pending was pending before or belongs to a node the event
      touches. */
  lemma StepRetains(s: Sim)
    requires s.events != [] && Sorted(s.events) && Step(s).Ok?
    ensures RetainsExcept(s.nodes, Step(s).value.nodes, s.events[0])
    ensures AddsOnlyAt(s.events, Step(s).value.events, Touched(s.events[0]))
  {
    var e := s.events[0];
    SortedTail(s.events);
    var observed := s.(clock := e.time, events := s.events[1..], nodes := ObserveAll(s.nodes, e.time));
    assert Step(s) == Dispatch(observed, e);
    DispatchRetains(observed, e);
    var t := Step(s).value;
    forall m, x | m in s.nodes && Present(s.nodes[m], x) && !Released(e, m, x)
      ensures m in t.nodes && Present(t.nodes[m], x)
    {
      assert Present(observed.nodes[m], x);
    }
  }
}

=== FILE: queue.dfy ===
/** One queueing station: its customers, servers, loss counter and time-in-state record
    (simulador_rede_filas.py, classes Cliente and Fila). */
module Queue {
  import opened Wrappers
  import Lcg
  import opened Topology
  import opened Histogram

  /** A customer: identity, time it entered its current node, that node, and where it goes
      after service (None: it leaves the network). */
  datatype Customer = Customer(id: int, arrivedAt: real, current: string, next: Option<string>)

  /** A server: the customer in service, if any, and the completion time. */
  datatype Slot = Slot(occupant: Option<Customer>, completion: real)

  /** The program's `(None, 0)`. */
  const Idle: Slot := Slot(None, 0.0)

  predicate IsBusy(slot: Slot) {
    slot.occupant.Some?
  }

  /** Runtime state of a node. */
  datatype Node = Node(
    cfg: NodeConfig,
    waiting: seq<Customer>,
    servers: seq<Slot>,
    lost: nat,
    hist: Hist,
    last: real,
    gen: Lcg.Gen)

  /** Number of server slots: `[(None, 0)] * c` is empty for c <= 0. */
  function SlotCount(cfg: NodeConfig): nat {
    if cfg.servers > 0 then cfg.servers else 0
  }

  /** A node as constructed: empty, every server idle, its own generator seeded 1. */
  function NewNode(cfg: NodeConfig): (n: Node)
    ensures n.cfg == cfg && n.waiting == [] && n.lost == 0 && n.hist == [] && n.last == 0.0
    ensures |n.servers| == SlotCount(cfg)
    ensures forall i :: 0 <= i < |n.servers| ==> n.servers[i] == Idle
    ensures n.gen == Lcg.Default
    ensures Occupancy(n) == 0
  {
    var servers := seq(SlotCount(cfg), _ => Idle);
    NoneBusy(servers);
    Node(cfg, [], servers, 0, [], 0.0, Lcg.Default)
  }

  /** Some server of the list is serving customer `c`. */
  predicate InService(servers: seq<Slot>, c: Customer) {
    exists j :: 0 <= j < |servers| && servers[j].occupant == Some(c)
  }

  /** Customer `c` is in the node: waiting or in service. */
  predicate Present(n: Node, c: Customer) {
    c in n.waiting || InService(n.servers, c)
  }

  /** Every customer in node `a` is still in node `b`, waiting or in service. */
  ghost predicate Retains(a: Node, b: Node) {
    forall x :: Present(a, x) ==> Present(b, x)
  }

  /** Number of occupied servers. */
  function Busy(servers: seq<Slot>): nat {
    if servers == [] then 0 else (if IsBusy(servers[0]) then 1 else 0) + Busy(servers[1..])
  }

  /** Customers present: waiting plus in service. */
  function Occupancy(n: Node): nat {
    |n.waiting| + Busy(n.servers)
  }

  lemma {:induction false} NoneBusy(servers: seq<Slot>)
    requires forall i :: 0 <= i < |servers| ==> !IsBusy(servers[i])
    ensures Busy(servers) == 0
  {
    if servers != [] {
      NoneBusy(servers[1..]);
    }
  }

  lemma {:induction false} BusyBound(servers: seq<Slot>)
    ensures Busy(servers) <= |servers|
    ensures Busy(servers) == |servers| <==> forall i :: 0 <= i < |servers| ==> IsBusy(servers[i])
  {
    if servers != [] {
      BusyBound(servers[1..]);
      if Busy(servers) == |servers| {
        forall i | 0 <= i < |servers| ensures IsBusy(servers[i]) {
          if i > 0 { assert servers[1..][i - 1] == servers[i]; }
        }
      }
      if forall i :: 0 <= i < |servers| ==> IsBusy(servers[i]) {
        assert forall i :: 0 <= i < |servers[1..]| ==> IsBusy(servers[1..][i]) by {
          forall i | 0 <= i < |servers[1..]| ensures IsBusy(servers[1..][i]) {
            assert servers[1..][i] == servers[i + 1];
          }
        }
      }
    }
  }

  /** Replacing one slot changes the busy count by the difference of the two slots. */
  lemma {:induction false} BusyUpdate(servers: seq<Slot>, i: nat, slot: Slot)
    requires i < |servers|
    ensures Busy(servers[i := slot]) + (if IsBusy(servers[i]) then 1 else 0)
         == Busy(servers) + (if IsBusy(slot) then 1 else 0)
  {
    if i == 0 {
      assert servers[i := slot][1..] == servers[1..];
    } else {
      BusyUpdate(servers[1..], i - 1, slot);
      assert servers[i := slot][1..] == servers[1..][i - 1 := slot];
    }
  }

  /** `lo + (hi - lo) * u`: a uniform sample of [lo, hi] scaled from a unit variate. */
  function Spread(lo: real, hi: real, u: real): real {
    lo + (hi - lo) * u
  }

  lemma SpreadBetween(lo: real, hi: real, u: real)
    requires lo <= hi && Lcg.Unit(u)
    ensures lo <= Spread(lo, hi, u) <= hi
  {
    Lcg.ProductNonNegative(hi - lo, u);
    Lcg.ProductNonNegative(hi - lo, 1.0 - u);
  }

  lemma SpreadNonNegative(lo: real, hi: real, u: real)
    requires lo >= 0.0 && hi >= 0.0 && Lcg.Unit(u)
    ensures Spread(lo, hi, u) >= 0.0
  {
    if lo <= hi {
      SpreadBetween(lo, hi, u);
    } else {
      Lcg.ProductNonNegative(lo - hi, u);
      Lcg.ProductNonNegative(hi, u);
      Lcg.ProductNonNegative(lo, 1.0 - u);
      assert Spread(lo, hi, u) == lo * (1.0 - u) + hi * u;
    }
  }

  lemma SpreadBounds(lo: real, hi: real, u: real)
    requires Lcg.Unit(u)
    ensures lo <= hi ==> lo <= Spread(lo, hi, u) <= hi
    ensures lo >= 0.0 && hi >= 0.0 ==> Spread(lo, hi, u) >= 0.0
  {
    if lo <= hi { SpreadBetween(lo, hi, u); }
    if lo >= 0.0 && hi >= 0.0 { SpreadNonNegative(lo, hi, u); }
  }

  /** All four interval bounds are non-negative. */
  predicate NonNegativeBounds(cfg: NodeConfig) {
    cfg.arrMin >= 0.0 && cfg.arrMax >= 0.0 && cfg.svcMin >= 0.0 && cfg.svcMax >= 0.0
  }

  /** A service duration from the node's own generator, which advances by one draw. */
  function ServiceTime(n: Node): (r: (Node, real))
    ensures r.0 == n.(gen := Lcg.Next(n.gen).0)
    ensures n.cfg.svcMin <= n.cfg.svcMax ==> n.cfg.svcMin <= r.1 <= n.cfg.svcMax
    ensures n.cfg.svcMin >= 0.0 && n.cfg.svcMax >= 0.0 ==> r.1 >= 0.0
  {
    var draw := Lcg.Next(n.gen);
    SpreadBounds(n.cfg.svcMin, n.cfg.svcMax, draw.1);
    (n.(gen := draw.0), Spread(n.cfg.svcMin, n.cfg.svcMax, draw.1))
  }

  /** The node has its own (exogenous) arrival stream. */
  predicate HasOwnArrivals(cfg: NodeConfig) {
    cfg.arrMin > 0.0 || cfg.arrMax > 0.0
  }

  /** The time of the node's next own arrival after `now`; None is the program's infinite
      time, returned without drawing when both arrival bounds are zero. */
  function ArrivalTime(n: Node, now: real): (r: (Node, Option<real>))
    ensures r.1.None? <==> n.cfg.arrMin == 0.0 && n.cfg.arrMax == 0.0
    ensures r.1.None? ==> r.0 == n
    ensures r.1.Some? ==> r.0 == n.(gen := Lcg.Next(n.gen).0)
    ensures r.1.Some? && n.cfg.arrMin <= n.cfg.arrMax ==>
      now + n.cfg.arrMin <= r.1.value <= now + n.cfg.arrMax
    ensures r.1.Some? && n.cfg.arrMin >= 0.0 && n.cfg.arrMax >= 0.0 ==> r.1.value >= now
  {
    if n.cfg.arrMin == 0.0 && n.cfg.arrMax == 0.0 then (n, None)
    else
      var draw := Lcg.Next(n.gen);
      SpreadBounds(n.cfg.arrMin, n.cfg.arrMax, draw.1);
      (n.(gen := draw.0), Some(now + Spread(n.cfg.arrMin, n.cfg.arrMax, draw.1)))
  }

  /** The server holds the customer with identity `id`. */
  predicate Holds(slot: Slot, id: int) {
    slot.occupant.Some? && slot.occupant.value.id == id
  }

  /** Index of the first server holding customer `id`, if any. */
  function FirstHolder(servers: seq<Slot>, id: int): (r: Option<nat>)
    ensures r.Some? ==> r.value < |servers| && Holds(servers[r.value], id)
    ensures r.Some? ==> forall j :: 0 <= j < r.value ==> !Holds(servers[j], id)
    ensures r.None? ==> forall j :: 0 <= j < |servers| ==> !Holds(servers[j], id)
  {
    if servers == [] then None
    else if Holds(servers[0], id) then Some(0)
    else match FirstHolder(servers[1..], id)
      case None => None
      case Some(k) => Some(k + 1)
  }

  /** Frees the first server holding customer `id`; without such a server nothing changes. */
  function Release(servers: seq<Slot>, id: int): (r: seq<Slot>)
    ensures |r| == |servers|
    ensures FirstHolder(servers, id).None? ==> r == servers
    ensures FirstHolder(servers, id).Some? ==> r == servers[FirstHolder(servers, id).value := Idle]
    ensures Busy(r) == Busy(servers) - (if FirstHolder(servers, id).Some? then 1 else 0)
  {
    match FirstHolder(servers, id)
    case None => servers
    case Some(i) =>
      BusyUpdate(servers, i, Idle);
      servers[i := Idle]
  }

  /** Releasing identity `id` keeps in service every customer with another identity. */
  lemma ReleaseKeeps(servers: seq<Slot>, id: int)
    ensures forall x :: InService(servers, x) && x.id != id ==> InService(Release(servers, id), x)
  {
    forall x | InService(servers, x) && x.id != id ensures InService(Release(servers, id), x) {
      var j :| 0 <= j < |servers| && servers[j].occupant == Some(x);
      assert Release(servers, id)[j] == servers[j];
    }
  }

  /** Credits the time since the node's last update to its occupancy level at the start of
      that interval, and moves the last update to `now`. */
  function Observe(n: Node, now: real): (r: Node)
    ensures r.last == now
    ensures Total(r.hist) == Total(n.hist) + (now - n.last)
    ensures TimeAt(r.hist, Occupancy(n)) == TimeAt(n.hist, Occupancy(n)) + (now - n.last)
    ensures forall l :: l != Occupancy(n) ==> TimeAt(r.hist, l) == TimeAt(n.hist, l)
    ensures r == n.(hist := r.hist, last := now)
  {
    n.(hist := Credit(n.hist, Occupancy(n), now - n.last), last := now)
  }
}

=== FILE: simulation.dfy ===
/** Construction of the network and the main event loop, with the invariants the loop keeps
    (simulador_rede_filas.py, SimuladorRede.__init__ and executar). */
module Simulation {
  import opened Wrappers
  import opened Errors
  import Lcg
  import opened Topology
  import opened Histogram
  import opened Queue
  import opened Events
  import opened Network

  /** Every node's time-in-state record covers [0, clock]: it was last updated at the clock
      and its buckets add up to the clock. */
  predicate HistoryCoversClock(s: Sim) {
    forall n :: n in s.nodes ==> s.nodes[n].last == s.clock && Total(s.nodes[n].hist) == s.clock
  }

  /** Interval bounds are non-negative and no pending event lies before the clock. */
  predicate Causal(s: Sim) {
    NonNegative(s.nodes) && forall i :: 0 <= i < |s.events| ==> s.events[i].time >= s.clock
  }

  /** The node holds no more customers than its capacity (a node with a negative capacity
      can only be empty). */
  predicate WithinCapacity(n: Node) {
    n.cfg.capacity.None? || Occupancy(n) == 0 || Occupancy(n) <= n.cfg.capacity.value
  }

  predicate Bounded(s: Sim) {
    forall n :: n in s.nodes ==> WithinCapacity(s.nodes[n])
  }

  /** Each step credits exactly the elapsed interval to every node, so the records keep
      covering the clock. */
  lemma StepCoversClock(s: Sim)
    requires s.events != [] && Sorted(s.events) && HistoryCoversClock(s) && Step(s).Ok?
    ensures HistoryCoversClock(Step(s).value)
  {
  }

  /** The head of a sorted list is the earliest pending event. */
  lemma HeadEarliest(q: seq<Event>)
    requires q != [] && Sorted(q)
    ensures forall e :: e in q[1..] ==> q[0].time <= e.time
  {
    forall e | e in q[1..] ensures q[0].time <= e.time {
      var k :| 0 <= k < |q[1..]| && q[1..][k] == e;
      assert NotAfter(q[0], q[k + 1]);
    }
  }

  /** With non-negative bounds the clock never runs backwards and no event is left behind it. */
  lemma StepCausal(s: Sim)
    requires s.events != [] && Sorted(s.events) && Causal(s) && Step(s).Ok?
    ensures Causal(Step(s).value)
    ensures Step(s).value.clock >= s.clock
  {
    var t := Step(s).value;
    HeadEarliest(s.events);
    assert NonNegative(t.nodes) by {
      forall n | n in t.nodes ensures NonNegativeBounds(t.nodes[n].cfg) {
        assert t.nodes[n].cfg == s.nodes[n].cfg;
      }
    }
    forall i | 0 <= i < |t.events| ensures t.events[i].time >= t.clock {
      assert t.events[i] in t.events;
    }
  }

  /** Under the whole-system reading of the capacity, an arrival never overfills a node. */
  lemma ArriveBounded(s: Sim, name: string, who: Option<Customer>)
    requires Sorted(s.events) && s.admission == WholeSystem && Bounded(s) && Arrive(s, name, who).Ok?
    ensures Bounded(Arrive(s, name, who).value)
  {
    var t := Arrive(s, name, who).value;
    forall m | m in t.nodes ensures WithinCapacity(t.nodes[m]) {
      if m == name {
        var before := s.nodes[name];
        if Admits(s.admission, before) {
          assert Occupancy(t.nodes[m]) == Occupancy(before) + 1;
        } else {
          assert Occupancy(t.nodes[m]) == Occupancy(before);
        }
      } else {
        assert t.nodes[m] == s.nodes[m];
      }
    }
  }

  lemma DepartBounded(s: Sim, name: string, c: Customer)
    requires Sorted(s.events) && s.admission == WholeSystem && Bounded(s) && Depart(s, name, Some(c)).Ok?
    ensures Bounded(Depart(s, name, Some(c)).value)
  {
    StagesBounded(s, name, c);
  }

  /** The same bound, carried through the three stages of a departure. */
  lemma StagesBounded(s: Sim, name: string, c: Customer)
    requires Sorted(s.events) && name in s.nodes && s.admission == WholeSystem && Bounded(s)
    requires Route(Free(s, name, c.id), c).Ok?
    requires FillAt(Route(Free(s, name, c.id), c).value, name).Ok?
    ensures Bounded(FillAt(Route(Free(s, name, c.id), c).value, name).value)
  {
    var s1 := Free(s, name, c.id);
    FreeBounded(s, name, c.id);
    RouteBounded(s1, c);
    FillAtBounded(Route(s1, c).value, name);
  }

  lemma FreeBounded(s: Sim, name: string, id: int)
    requires Sorted(s.events) && name in s.nodes && Bounded(s)
    ensures Bounded(Free(s, name, id))
  {
    var s1 := Free(s, name, id);
    forall m | m in s1.nodes ensures WithinCapacity(s1.nodes[m]) {
      assert WithinCapacity(s.nodes[m]);
    }
  }

  lemma RouteBounded(s: Sim, c: Customer)
    requires Sorted(s.events) && s.admission == WholeSystem && Bounded(s) && Route(s, c).Ok?
    ensures Bounded(Route(s, c).value)
  {
    if !Leaves(c) {
      ArriveBounded(s, c.next.value, Some(Customer(c.id, s.clock, c.next.value, None)));
    }
  }

  lemma FillAtBounded(s: Sim, name: string)
    requires Sorted(s.events) && name in s.nodes && Bounded(s) && FillAt(s, name).Ok?
    ensures Bounded(FillAt(s, name).value)
  {
    var t := FillAt(s, name).value;
    forall m | m in t.nodes ensures WithinCapacity(t.nodes[m]) {
      if m != name {
        assert t.nodes[m] == s.nodes[m];
      }
    }
  }

  lemma StepBounded(s: Sim)
    requires s.events != [] && Sorted(s.events) && s.admission == WholeSystem && Bounded(s) && Step(s).Ok?
    ensures Bounded(Step(s).value)
  {
    var e := s.events[0];
    SortedTail(s.events);
    var observed := s.(clock := e.time, events := s.events[1..], nodes := ObserveAll(s.nodes, e.time));
    assert Bounded(observed) by {
      forall m | m in observed.nodes ensures WithinCapacity(observed.nodes[m]) {
        assert WithinCapacity(s.nodes[m]);
      }
    }
    match e.kind
    case Arrival =>
      ArriveBounded(observed, e.node, e.who);
    case Departure =>
      DepartBounded(observed, e.node, e.who.value);
  }

  /** A single-server node of capacity 1 ("G/G/1/1") without arrivals of its own, whose one
      server is busy with customer 1 and whose waiting list is empty. */
  function Crowded(admission: Admission): Sim {
    var cfg := NodeConfig("G/G/1/1", 1, Some(1), 0.0, 0.0, 1.0, 1.0, []);
    var busy := Slot(Some(Customer(1, 0.0, "Q1", None)), 1.0);
    var node := Node(cfg, [], [busy], 0, [], 0.0, Lcg.Default);
    Sim(0.0, [], map["Q1" := node], 1, admission)
  }

  lemma CrowdedBounded(admission: Admission)
    ensures Bounded(Crowded(admission))
    ensures Busy(Crowded(admission).nodes["Q1"].servers) == 1
  {
    var s := Crowded(admission);
    var node := s.nodes["Q1"];
    assert Busy(node.servers) == 1;
    forall n | n in s.nodes ensures WithinCapacity(s.nodes[n]) {
      assert s.nodes[n] == node;
    }
  }

  /** The crowded node's only server is busy and it has no arrivals of its own, so an
      admitted arrival schedules nothing and cannot tie. */
  lemma CrowdedAdmitted()
    ensures Arrive(Crowded(QueueOnly), "Q1", None).Ok?
  {
    var s := Crowded(QueueOnly);
    var node := s.nodes["Q1"];
    var c := Customer(2, 0.0, "Q1", None);
    var s' := s.(customers := 2);
    assert NextNode(node.cfg.routing) == Ok(None);
    assert Arrive(s, "Q1", None) == Admit(s', "Q1", c);
    var queued := node.(waiting := node.waiting + [c]);
    assert Reschedule(queued, [], 0.0, "Q1") == Ok((queued, []));
    assert Fill(queued, [], 0.0, "Q1", 0) == Ok((queued, []));
  }

  /** As written, admission looks at the waiting list only: the crowded node admits a new
      customer and then holds two customers against a capacity of one. */
  lemma QueueOnlyOverfills()
    ensures Bounded(Crowded(QueueOnly))
    ensures Arrive(Crowded(QueueOnly), "Q1", None).Ok?
    ensures !Bounded(Arrive(Crowded(QueueOnly), "Q1", None).value)
  {
    CrowdedBounded(QueueOnly);
    CrowdedAdmitted();
    var s := Crowded(QueueOnly);
    assert Admits(QueueOnly, s.nodes["Q1"]);
    var t := Arrive(s, "Q1", None).value;
    assert Occupancy(t.nodes["Q1"]) == 2;
  }

  /** Counting the customers in service as well, the same arrival is lost. */
  lemma WholeSystemRejects()
    ensures Arrive(Crowded(WholeSystem), "Q1", None).Ok?
    ensures Arrive(Crowded(WholeSystem), "Q1", None).value.nodes["Q1"].lost == 1
    ensures Bounded(Arrive(Crowded(WholeSystem), "Q1", None).value)
  {
    var s := Crowded(WholeSystem);
    CrowdedBounded(WholeSystem);
    ArriveBounded(s, "Q1", None);
  }

  function Max0(n: int): nat {
    if n > 0 then n else 0
  }

  /** The state after up to `n` main-loop steps from `s`: fewer when the event list runs
      empty first, and the first error ends the run. */
  function Run(s: Sim, n: nat): (r: Result<Sim, Error>)
    requires Sorted(s.events)
    ensures n == 0 ==> r == Ok(s)
    ensures r.Ok? ==> r.value.nodes.Keys == s.nodes.Keys && Sorted(r.value.events)
    decreases n
  {
    if n == 0 then Ok(s)
    else
      match Run(s, n - 1)
      case Err(x) => Err(x)
      case Ok(t) => if t.events == [] then Ok(t) else Step(t)
  }

  /** A run from a state with nothing pending does nothing, however long it is. */
  lemma {:induction false} RunIdle(s: Sim, n: nat)
    requires Sorted(s.events) && s.events == []
    ensures Run(s, n) == Ok(s)
  {
    if n > 0 {
      RunIdle(s, n - 1);
    }
  }

  /** The invariants the main loop keeps, relative to its start state `s0`: sortedness, node
      names, tie-freedom, histograms covering the clock, causality and, under the
      whole-system check, the capacity bound. */
  predicate Keeps(s0: Sim, s: Sim) {
    && Sorted(s.events)
    && s.nodes.Keys == s0.nodes.Keys && s.admission == s0.admission
    && (TieFree(s0.events) ==> TieFree(s.events))
    && (HistoryCoversClock(s0) ==> HistoryCoversClock(s))
    && (Causal(s0) ==> Causal(s) && s.clock >= s0.clock)
    && (s0.admission == WholeSystem && Bounded(s0) ==> Bounded(s))
  }

  /** One step from a state that keeps the invariants keeps them. */
  lemma StepKeeps(s0: Sim, s: Sim)
    requires Keeps(s0, s) && s.events != [] && Step(s).Ok?
    ensures Keeps(s0, Step(s).value)
  {
    if HistoryCoversClock(s0) { StepCoversClock(s); }
    if Causal(s0) { StepCausal(s); }
    if s0.admission == WholeSystem && Bounded(s0) { StepBounded(s); }
  }

  /** Every state a run reaches keeps the invariants of its start. */
  lemma {:induction false} RunKeeps(s0: Sim, n: nat)
    requires Sorted(s0.events) && Run(s0, n).Ok?
    ensures Keeps(s0, Run(s0, n).value)
  {
    if n > 0 {
      RunKeeps(s0, n - 1);
      var t := Run(s0, n - 1).value;
      if t.events != [] {
        StepKeeps(s0, t);
      }
    }
  }

  /** A run from `s0` reaches `s` after `k` steps. The fact is kept under a quantifier so
      that a proof unfolds `Run` only where it names the step count. */
  ghost predicate Reaches(s0: Sim, k: nat, s: Sim) {
    Sorted(s0.events) && forall n: nat :: n == k ==> Run(s0, n) == Ok(s)
  }

  /** A run that has reached `s` with events pending takes its next step from `s`. */
  lemma RunNext(s0: Sim, k: nat, s: Sim)
    requires Reaches(s0, k, s) && s.events != [] && Sorted(s.events)
    ensures Run(s0, k + 1) == Step(s)
    ensures Step(s).Ok? ==> Reaches(s0, k + 1, Step(s).value)
  {
    assert Run(s0, k) == Ok(s);
  }

  /** What `Reaches` says, as an equation. */
  lemma Reached(s0: Sim, k: nat, s: Sim)
    requires Reaches(s0, k, s)
    ensures Run(s0, k) == Ok(s)
  {
    assert Run(s0, k) == Ok(s);
  }

  /** `executar`: processes at most `budget` events, stopping early when none is pending;
      `processed` counts the events handled before the end or before the error. */
  method Execute(s0: Sim, budget: int) returns (r: Result<Sim, Error>, processed: nat)
    requires Sorted(s0.events)
    ensures processed <= Max0(budget)
    ensures budget <= 0 ==> r == Ok(s0) && processed == 0
    ensures r.Ok? && processed < budget ==> r.value.events == []
    ensures r.Ok? ==> r == Run(s0, processed)
    ensures r.Err? ==> processed < budget && r == Run(s0, processed + 1)
    ensures r.Ok? ==> Keeps(s0, r.value)
  {
    var s := s0;
    processed := 0;
    while processed < budget && s.events != []
      invariant processed <= Max0(budget)
      invariant processed == 0 ==> s == s0
      invariant Sorted(s.events) && Reaches(s0, processed, s)
      decreases Max0(budget) - processed
    {
      RunNext(s0, processed, s);
      var next := Step(s);
      if next.Err? {
        return Err(next.error), processed;
      }
      s := next.value;
      processed := processed + 1;
    }
    Reached(s0, processed, s);
    RunKeeps(s0, processed);
    r := Ok(s);
  }

  /** The topology descriptor as parsed: node names in file order with their entries. */
  type Descriptor = seq<(string, NodeSpec)>

  predicate DistinctNames(d: Descriptor) {
    forall i, j :: 0 <= i < j < |d| ==> d[i].0 != d[j].0
  }

  function Names(d: Descriptor): set<string> {
    set i | 0 <= i < |d| :: d[i].0
  }

  predicate AllDerive(d: Descriptor) {
    forall i :: 0 <= i < |d| ==> Derive(d[i].1).Ok?
  }

  lemma NamesCons(d: Descriptor)
    requires d != [] && DistinctNames(d)
    ensures Names(d) == {d[0].0} + Names(d[1..])
    ensures d[0].0 !in Names(d[1..])
    ensures DistinctNames(d[1..])
  {
    forall n | n in Names(d) ensures n in {d[0].0} + Names(d[1..]) {
      var i :| 0 <= i < |d| && d[i].0 == n;
      if i > 0 { assert d[1..][i - 1].0 == n; }
    }
  }

  lemma AllDeriveCons(d: Descriptor)
    requires d != []
    ensures AllDerive(d) <==> Derive(d[0].1).Ok? && AllDerive(d[1..])
  {
    if Derive(d[0].1).Ok? && AllDerive(d[1..]) {
      forall i | 0 <= i < |d| ensures Derive(d[i].1).Ok? {
        if i > 0 { assert d[i] == d[1..][i - 1]; }
      }
    }
    if AllDerive(d) {
      forall i | 0 <= i < |d[1..]| ensures Derive(d[1..][i].1).Ok? {
        assert d[1..][i] == d[i + 1];
      }
    }
  }

  /** Builds every node, in descriptor order, stopping at the first malformed entry. */
  function BuildNodes(d: Descriptor): (r: Result<map<string, Node>, Error>)
    requires DistinctNames(d)
    ensures r.Ok? <==> AllDerive(d)
    ensures r.Ok? ==> r.value.Keys == Names(d)
    ensures r.Ok? ==> forall i :: 0 <= i < |d| ==> r.value[d[i].0] == NewNode(Derive(d[i].1).value)
    decreases |d|
  {
    if d == [] then Ok(map[])
    else
      NamesCons(d);
      AllDeriveCons(d);
      match Derive(d[0].1)
      case Err(x) => Err(x)
      case Ok(cfg) =>
        match BuildNodes(d[1..])
        case Err(x) => Err(x)
        case Ok(rest) =>
          BuiltCons(d, rest);
          Ok(rest[d[0].0 := NewNode(cfg)])
  }

  /** Adding the first entry's node to the nodes built from the rest of the descriptor. */
  lemma BuiltCons(d: Descriptor, rest: map<string, Node>)
    requires d != [] && DistinctNames(d) && AllDerive(d) && AllDerive(d[1..])
    requires forall i :: 0 <= i < |d[1..]| ==> d[1..][i].0 in rest && rest[d[1..][i].0] == NewNode(Derive(d[1..][i].1).value)
    ensures forall i :: 0 <= i < |d| ==>
      rest[d[0].0 := NewNode(Derive(d[0].1).value)][d[i].0] == NewNode(Derive(d[i].1).value)
  {
    var m := rest[d[0].0 := NewNode(Derive(d[0].1).value)];
    forall i | 0 < i < |d| ensures d[i].0 in m && m[d[i].0] == NewNode(Derive(d[i].1).value) {
      assert d[i] == d[1..][i - 1];
      assert d[i].0 != d[0].0;
    }
  }

  /** The program's start time for the first arrivals. */
  const StartTime: real := 2.0

  /** The per-node effect of seeding a node's first own arrival. */
  function Seeded(n: Node): Node {
    if HasOwnArrivals(n.cfg) then n.(gen := Lcg.Next(n.gen).0) else n
  }

  /** Schedules the first own arrival of every node that has an arrival stream, in descriptor
      order, each drawn from the node's own generator as if the clock were at StartTime. No
      pending event may concern a node still to seed, so no tie can arise. */
  function Seed(d: Descriptor, s: Sim): (r: Result<Sim, Error>)
    requires DistinctNames(d) && Names(d) <= s.nodes.Keys && Sorted(s.events)
    requires forall e :: e in s.events ==> e.node !in Names(d)
    ensures r.Ok?
    ensures r.value.clock == s.clock && r.value.customers == s.customers && r.value.admission == s.admission
    ensures r.value.nodes.Keys == s.nodes.Keys && Sorted(r.value.events)
    ensures TieFree(s.events) ==> TieFree(r.value.events)
    ensures forall n :: n in s.nodes ==>
      r.value.nodes[n] == if n in Names(d) then Seeded(s.nodes[n]) else s.nodes[n]
    ensures NonNegative(s.nodes) ==> NotEarlier(s.events, r.value.events, StartTime)
    ensures AddsOnlyAt(s.events, r.value.events, Names(d))
    decreases |d|
  {
    if d == [] then Ok(s)
    else
      NamesCons(d);
      var s1 := SeedOne(s, d[0].0);
      var r := Seed(d[1..], s1);
      assert NonNegative(s.nodes) ==> NonNegative(s1.nodes);
      r
  }

  /** Seeding adds exactly one own arrival for each named node with an arrival stream. */
  lemma {:induction false} SeedArrivals(d: Descriptor, s: Sim, n: string)
    requires DistinctNames(d) && Names(d) <= s.nodes.Keys && Sorted(s.events)
    requires forall e :: e in s.events ==> e.node !in Names(d)
    requires n in s.nodes
    ensures OwnArrivals(Seed(d, s).value.events, n)
         == OwnArrivals(s.events, n) + if n in Names(d) && HasOwnArrivals(s.nodes[n].cfg) then 1 else 0
    decreases |d|
  {
    if d != [] {
      NamesCons(d);
      var s1 := SeedOne(s, d[0].0);
      SeedArrivals(d[1..], s1, n);
    }
  }

  /** Seeds one node: its first own arrival is drawn at StartTime, if it has an arrival stream. */
  function SeedOne(s: Sim, name: string): (r: Sim)
    requires name in s.nodes && Sorted(s.events)
    requires forall e :: e in s.events ==> e.node != name
    ensures r.clock == s.clock && r.customers == s.customers && r.admission == s.admission
    ensures r.nodes == s.nodes[name := Seeded(s.nodes[name])]
    ensures Sorted(r.events) && (TieFree(s.events) ==> TieFree(r.events))
    ensures OwnArrivals(r.events, name) == OwnArrivals(s.events, name) + if HasOwnArrivals(s.nodes[name].cfg) then 1 else 0
    ensures forall m :: m != name ==> OwnArrivals(r.events, m) == OwnArrivals(s.events, m)
    ensures forall x :: x in r.events ==> x in s.events || x.node == name
    ensures NonNegative(s.nodes) ==> NotEarlier(s.events, r.events, StartTime)
  {
    var r1 := Reschedule(s.nodes[name], s.events, StartTime, name);
    s.(events := r1.value.1, nodes := s.nodes[name := r1.value.0])
  }

  /** `SimuladorRede.__init__` after loading: all nodes built, clock at 0, then the first
      arrivals seeded. */
  function Init(d: Descriptor, admission: Admission): (r: Result<Sim, Error>)
    requires DistinctNames(d)
    ensures r.Ok? <==> AllDerive(d)
    ensures r.Err? ==> r.error == BuildNodes(d).error
    ensures r.Ok? ==> r.value.clock == 0.0 && r.value.customers == 0 && r.value.admission == admission
    ensures r.Ok? ==> r.value.nodes.Keys == Names(d)
  {
    match BuildNodes(d)
    case Err(x) => Err(x)
    case Ok(nodes) => Seed(d, Sim(0.0, [], nodes, 0, admission))
  }

  /** Each node `Init` produces is a fresh node for its entry, seeded when it has arrivals. */
  lemma InitNode(d: Descriptor, admission: Admission, n: string)
    requires DistinctNames(d) && Init(d, admission).Ok? && n in Init(d, admission).value.nodes
    ensures exists i ::
      && 0 <= i < |d| && d[i].0 == n
      && Init(d, admission).value.nodes[n] == Seeded(NewNode(Derive(d[i].1).value))
  {
    var nodes := BuildNodes(d).value;
    var i :| 0 <= i < |d| && d[i].0 == n;
    assert nodes[n] == NewNode(Derive(d[i].1).value);
  }

  /** `Init` establishes the invariants the main loop keeps. */
  lemma InitEstablishes(d: Descriptor, admission: Admission)
    requires DistinctNames(d) && Init(d, admission).Ok?
    ensures var s := Init(d, admission).value;
      && Sorted(s.events) && TieFree(s.events)
      && HistoryCoversClock(s) && Bounded(s)
      && (NonNegative(s.nodes) ==> Causal(s))
  {
    var nodes := BuildNodes(d).value;
    var s0 := Sim(0.0, [], nodes, 0, admission);
    var s := Init(d, admission).value;
    forall n | n in s.nodes ensures s.nodes[n].last == 0.0 && s.nodes[n].hist == [] && Occupancy(s.nodes[n]) == 0 {
      InitNode(d, admission, n);
    }
    assert HistoryCoversClock(s);
    assert Bounded(s);
    if NonNegative(s.nodes) {
      assert NonNegative(s0.nodes) by {
        forall n | n in s0.nodes ensures NonNegativeBounds(s0.nodes[n].cfg) {
          assert s.nodes[n].cfg == s0.nodes[n].cfg;
        }
      }
      forall i | 0 <= i < |s.events| ensures s.events[i].time >= s.clock {
        assert s.events[i] in s.events;
      }
    }
  }

  /** Node `name` of `s` is built from `cfg`, holds nobody, has lost nobody, has one pending
      own arrival when it has an arrival stream (none otherwise), and its generator has drawn
      exactly for that arrival. */
  predicate StartsEmpty(s: Sim, name: string, cfg: NodeConfig) {
    && name in s.nodes
    && s.nodes[name].cfg == cfg && s.nodes[name].waiting == [] && Occupancy(s.nodes[name]) == 0
    && s.nodes[name].lost == 0
    && OwnArrivals(s.events, name) == (if HasOwnArrivals(cfg) then 1 else 0)
    && s.nodes[name].gen == if HasOwnArrivals(cfg) then Lcg.Next(Lcg.Default).0 else Lcg.Default
  }

  /** After `Init` every node is empty, the events hold exactly one first arrival per node with
      an arrival stream, and only those nodes' generators have drawn, once. */
  lemma InitNodes(d: Descriptor, admission: Admission)
    requires DistinctNames(d) && Init(d, admission).Ok?
    ensures forall i :: 0 <= i < |d| ==> StartsEmpty(Init(d, admission).value, d[i].0, Derive(d[i].1).value)
  {
    forall i | 0 <= i < |d| ensures StartsEmpty(Init(d, admission).value, d[i].0, Derive(d[i].1).value) {
      InitEntry(d, admission, i);
    }
  }

  /** The node and own arrivals `Init` produces for the entry at index `i`. */
  lemma InitEntry(d: Descriptor, admission: Admission, i: int)
    requires DistinctNames(d) && Init(d, admission).Ok? && 0 <= i < |d|
    ensures Init(d, admission).value.nodes[d[i].0] == Seeded(NewNode(Derive(d[i].1).value))
    ensures StartsEmpty(Init(d, admission).value, d[i].0, Derive(d[i].1).value)
  {
    var nodes := BuildNodes(d).value;
    assert d[i].0 in Names(d);
    assert nodes[d[i].0] == NewNode(Derive(d[i].1).value);
    SeedArrivals(d, Sim(0.0, [], nodes, 0, admission), d[i].0);
    SeededNew(Derive(d[i].1).value);
  }

  /** A freshly seeded node is empty and has drawn at most once. */
  lemma SeededNew(cfg: NodeConfig)
    ensures var n := Seeded(NewNode(cfg));
      && n.cfg == cfg && n.waiting == [] && Occupancy(n) == 0 && n.lost == 0
      && n.gen == if HasOwnArrivals(cfg) then Lcg.Next(Lcg.Default).0 else Lcg.Default
  {
  }
}

=== FILE: topology.dfy ===
/** Per-node configuration derived from the parsed topology descriptor
    (simulador_rede_filas.py, Fila.__init__ and Fila.obter_proxima_fila). */
module Topology {
  import opened Wrappers
  import opened Errors

  /** The separator of the Kendall type string "X/Y/c/K". */
  const Sep: char := '/'

  /** Concatenates the fields with `sep` between neighbours: the inverse of Split. */
  function Join(parts: seq<string>, sep: char): string
    requires |parts| >= 1
  {
    if |parts| == 1 then parts[0] else parts[0] + [sep] + Join(parts[1..], sep)
  }

  /** Python's `str.split(sep)`: every field, empty ones included, in order. */
  function Split(s: string, sep: char): (parts: seq<string>)
    ensures |parts| >= 1
    ensures forall i :: 0 <= i < |parts| ==> sep !in parts[i]
    ensures Join(parts, sep) == s
  {
    if s == [] then [[]]
    else
      var rest := Split(s[1..], sep);
      if s[0] == sep then
        assert s == [sep] + s[1..];
        [[]] + rest
      else
        var parts := [[s[0]] + rest[0]] + rest[1..];
        assert parts[1..] == rest[1..];
        parts
  }

  lemma {:induction false} SplitNoSeparator(w: string, sep: char)
    requires sep !in w
    ensures Split(w, sep) == [w]
  {
    if w != [] {
      SplitNoSeparator(w[1..], sep);
    }
  }

  lemma {:induction false} SplitAtSeparator(w: string, t: string, sep: char)
    requires sep !in w
    ensures Split(w + [sep] + t, sep) == [w] + Split(t, sep)
  {
    if w == [] {
      assert (w + [sep] + t)[1..] == t;
    } else {
      assert (w + [sep] + t)[1..] == w[1..] + [sep] + t;
      SplitAtSeparator(w[1..], t, sep);
      assert [w[0]] + w[1..] == w;
    }
  }

  /** Splitting a joined sequence of separator-free fields gives the fields back. */
  lemma {:induction false} SplitJoin(parts: seq<string>, sep: char)
    requires |parts| >= 1
    requires forall i :: 0 <= i < |parts| ==> sep !in parts[i]
    ensures Split(Join(parts, sep), sep) == parts
  {
    if |parts| == 1 {
      SplitNoSeparator(parts[0], sep);
    } else {
      SplitJoin(parts[1..], sep);
      SplitAtSeparator(parts[0], Join(parts[1..], sep), sep);
      assert [parts[0]] + parts[1..] == parts;
    }
  }

  predicate IsDigit(ch: char) {
    '0' <= ch <= '9'
  }

  predicate AllDigits(s: string) {
    forall i :: 0 <= i < |s| ==> IsDigit(s[i])
  }

  function DigitValue(ch: char): nat
    requires IsDigit(ch)
  {
    (ch as int) - ('0' as int)
  }

  function DigitChar(d: nat): char
    requires d < 10
  {
    (('0' as int) + d) as char
  }

  /** The value of a string of decimal digits, most significant first. */
  function DigitsValue(s: string): nat
    requires AllDigits(s)
  {
    if s == [] then 0 else 10 * DigitsValue(s[..|s| - 1]) + DigitValue(s[|s| - 1])
  }

  predicate HasSign(s: string) {
    |s| > 0 && (s[0] == '-' || s[0] == '+')
  }

  /** The digits after an optional sign. */
  function Magnitude(s: string): string {
    if HasSign(s) then s[1..] else s
  }

  /** A decimal integer literal: an optional sign, then at least one digit. */
  predicate IsIntLiteral(s: string) {
    |Magnitude(s)| > 0 && AllDigits(Magnitude(s))
  }

  /** Python's `int(s)` on a decimal literal; None stands for the ValueError. */
  function ParseInt(s: string): (r: Option<int>)
    ensures r.Some? <==> IsIntLiteral(s)
    ensures r.Some? && !(HasSign(s) && s[0] == '-') ==> r.value >= 0
  {
    var d := Magnitude(s);
    if |d| == 0 || !AllDigits(d) then None
    else if HasSign(s) && s[0] == '-' then Some(-(DigitsValue(d) as int))
    else Some(DigitsValue(d))
  }

  /** Decimal digits of a natural number, most significant first. */
  function FormatNat(n: nat): (s: string)
    ensures |s| > 0 && AllDigits(s)
  {
    if n < 10 then [DigitChar(n)] else FormatNat(n / 10) + [DigitChar(n % 10)]
  }

  /** Decimal text of an integer, with a leading '-' when negative. */
  function FormatInt(n: int): (s: string)
    ensures Sep !in s
  {
    if n < 0 then "-" + FormatNat(-n) else FormatNat(n)
  }

  lemma {:induction false} FormatNatValue(n: nat)
    ensures DigitsValue(FormatNat(n)) == n
  {
    var s := FormatNat(n);
    if n >= 10 {
      FormatNatValue(n / 10);
      assert s[..|s| - 1] == FormatNat(n / 10);
    }
  }

  /** `int()` reads back every integer written in decimal. */
  lemma ParseFormat(n: int)
    ensures ParseInt(FormatInt(n)) == Some(n)
  {
    if n < 0 {
      assert Magnitude(FormatInt(n)) == FormatNat(-n);
      FormatNatValue(-n);
    } else {
      assert !HasSign(FormatNat(n));
      FormatNatValue(n);
    }
  }

  /** Server count and capacity read from the Kendall type string; a capacity of None
      is the program's `float('inf')`. */
  datatype Shape = Shape(servers: int, capacity: Option<int>)

  /** The third field is the server count (1 when absent) and the fourth the capacity
      (unbounded when absent); further fields are ignored. */
  function ParseKendall(kendall: string): (r: Result<Shape, Error>)
    ensures r.Ok? <==>
      var parts := Split(kendall, Sep);
      (|parts| > 2 ==> IsIntLiteral(parts[2])) && (|parts| > 3 ==> IsIntLiteral(parts[3]))
    ensures r.Ok? ==> (r.value.capacity.Some? <==> |Split(kendall, Sep)| > 3)
  {
    var parts := Split(kendall, Sep);
    var servers := if |parts| > 2 then ParseInt(parts[2]) else Some(1);
    if servers.None? then Err(MalformedInteger(parts[2]))
    else if |parts| > 3 then
      match ParseInt(parts[3])
      case None => Err(MalformedInteger(parts[3]))
      case Some(k) => Ok(Shape(servers.value, Some(k)))
    else Ok(Shape(servers.value, None))
  }

  /** "X/Y": one server, unbounded capacity. */
  lemma KendallTwoFields(x: string, y: string)
    requires Sep !in x && Sep !in y
    ensures ParseKendall(x + [Sep] + y) == Ok(Shape(1, None))
  {
    SplitJoin([x, y], Sep);
  }

  /** "X/Y/c": c servers, unbounded capacity. */
  lemma KendallThreeFields(x: string, y: string, c: int)
    requires Sep !in x && Sep !in y
    ensures ParseKendall(x + [Sep] + y + [Sep] + FormatInt(c)) == Ok(Shape(c, None))
  {
    var parts := [x, y, FormatInt(c)];
    assert parts[1..][1..] == [FormatInt(c)];
    assert Join(parts[1..], Sep) == y + [Sep] + FormatInt(c);
    assert Join(parts, Sep) == x + [Sep] + (y + [Sep] + FormatInt(c));
    assert x + [Sep] + y + [Sep] + FormatInt(c) == x + [Sep] + (y + [Sep] + FormatInt(c));
    SplitJoin(parts, Sep);
    assert Split(x + [Sep] + y + [Sep] + FormatInt(c), Sep) == parts;
    ParseFormat(c);
  }

  /** "X/Y/c/K": c servers and capacity K. */
  lemma KendallFourFields(x: string, y: string, c: int, k: int)
    requires Sep !in x && Sep !in y
    ensures ParseKendall(x + [Sep] + y + [Sep] + FormatInt(c) + [Sep] + FormatInt(k)) == Ok(Shape(c, Some(k)))
  {
    var parts := [x, y, FormatInt(c), FormatInt(k)];
    assert parts[1..][1..][1..] == [FormatInt(k)];
    assert parts[1..][1..] == [FormatInt(c), FormatInt(k)];
    assert Join(parts[1..][1..], Sep) == FormatInt(c) + [Sep] + FormatInt(k);
    assert Join(parts[1..], Sep) == y + [Sep] + (FormatInt(c) + [Sep] + FormatInt(k));
    assert Join(parts, Sep) == x + [Sep] + (y + [Sep] + (FormatInt(c) + [Sep] + FormatInt(k)));
    assert x + [Sep] + y + [Sep] + FormatInt(c) + [Sep] + FormatInt(k)
        == x + [Sep] + (y + [Sep] + (FormatInt(c) + [Sep] + FormatInt(k)));
    SplitJoin(parts, Sep);
    assert Split(x + [Sep] + y + [Sep] + FormatInt(c) + [Sep] + FormatInt(k), Sep) == parts;
    ParseFormat(c);
    ParseFormat(k);
  }

  /** The routing list: ordered mappings from target node name to weight. */
  type Routing = seq<seq<(string, real)>>

  /** The node a customer goes to after service: the first key of the first routing entry,
      or None (leave the network) when there is no routing. */
  function NextNode(routing: Routing): (r: Result<Option<string>, Error>)
    ensures r == Ok(None) <==> routing == []
    ensures r.Err? <==> routing != [] && routing[0] == []
    ensures r.Ok? && r.value.Some? ==> r.value.value == routing[0][0].0
  {
    if routing == [] then Ok(None)
    else if routing[0] == [] then Err(EmptyRoutingEntry)
    else Ok(Some(routing[0][0].0))
  }

  /** An interval as given in the descriptor; each bound may be missing. */
  datatype Bounds = Bounds(min: Option<real>, max: Option<real>)

  /** One entry of the topology descriptor, already parsed from its file. */
  datatype NodeSpec = NodeSpec(kendall: string, arrival: Option<Bounds>, service: Option<Bounds>, routing: Routing)

  /** The configuration a node runs with. */
  datatype NodeConfig = NodeConfig(
    kendall: string,
    servers: int,
    capacity: Option<int>,
    arrMin: real, arrMax: real,
    svcMin: real, svcMax: real,
    routing: Routing)

  function OrZero(b: Option<Bounds>, min: bool): real {
    match b
    case None => 0.0
    case Some(bounds) =>
      var v := if min then bounds.min else bounds.max;
      if v.Some? then v.value else 0.0
  }

  predicate HasService(spec: NodeSpec) {
    spec.service.Some? && spec.service.value.min.Some? && spec.service.value.max.Some?
  }

  /** Derives a node's configuration: server count and capacity from the Kendall string,
      missing arrival bounds read as 0, service bounds required. */
  function Derive(spec: NodeSpec): (r: Result<NodeConfig, Error>)
    ensures r.Ok? <==> ParseKendall(spec.kendall).Ok? && HasService(spec)
    ensures r.Ok? ==> ParseKendall(spec.kendall) == Ok(Shape(r.value.servers, r.value.capacity))
    ensures r.Ok? ==> r.value.kendall == spec.kendall && r.value.routing == spec.routing
    ensures r.Ok? && spec.arrival.None? ==> r.value.arrMin == 0.0 && r.value.arrMax == 0.0
    ensures r.Ok? && spec.arrival.Some? ==>
      r.value.arrMin == (if spec.arrival.value.min.Some? then spec.arrival.value.min.value else 0.0)
    ensures r.Ok? && spec.arrival.Some? ==>
      r.value.arrMax == (if spec.arrival.value.max.Some? then spec.arrival.value.max.value else 0.0)
    ensures r.Ok? ==> r.value.svcMin == spec.service.value.min.value && r.value.svcMax == spec.service.value.max.value
  {
    match ParseKendall(spec.kendall)
    case Err(e) => Err(e)
    case Ok(shape) =>
      if !HasService(spec) then Err(MissingService)
      else
        Ok(NodeConfig(spec.kendall, shape.servers, shape.capacity,
                      OrZero(spec.arrival, true), OrZero(spec.arrival, false),
                      spec.service.value.min.value, spec.service.value.max.value,
                      spec.routing))
  }
}

=== FILE: wrappers.dfy ===
/** Optional values and results, the model's stand-ins for Python's `None` and raised exceptions. */
module Wrappers {

  /** A value that may be absent (`None` in the program). */
  datatype Option<+T> = None | Some(value: T)

  /** The outcome of an operation that the program may abort with an exception. */
  datatype Result<+T, +E> = Ok(value: T) | Err(error: E)
}
